=== FILE: README.md ===
# Request admission for the gym API, in Dafny

This project models how the gin/MongoDB/casbin gym API decides whether a request reaches a handler, together with the stores that pipeline depends on. Every stage and handler is a pure function, or a method without side effects, over explicit state. Storage faults, the clock, fresh identifiers, password hashing, JWT parsing and signing, and the casbin enforcer are all passed in as parameters.

- **Middleware stages** (`SecureMiddleware`, `ApiKeyMiddleware`, `JwtAuthMiddleware`, `InferObjectActionMiddleware`, `AuthorizeMiddleware`): each maps a request `Context` to `Continue(context')` or `Abort(status, message)`.
- **`AuthMiddleware`**: the "either credential" composer. It exists in the code but no route uses it.
- **`ApiKeys`**: the `api_keys` collection, modelled as a sequence in natural order. `FindOne` is "first match". Covers create, invalidate, validate, owner lookup, lookup by account and delete.
- **`Permissions`**: the casbin policy, modelled as a set of `(subject, object, action)` triples and a set of `(user, role)` pairs. Covers the handlers that add, remove and list them.
- **`Authentication`**: the user registry, login, and the application lifecycle (`pending` → `approved`/`rejected`), including token issuance for applications.
- **`Routes`**: the router from `main.go`.
  - The secure-headers stage runs on every route.
  - The protected group runs API key → JWT → object/action inference → authorization.
  - Also holds the route table and the end-to-end admission rule.
- **`Config`**: `maskURI`.
- **Support modules**: `Wrappers` (`Option`), `Bytes`, `Storage` (first-match search, removal), `Strings` (Go's `strings.Split` and its inverse), `ObjectIds` (`primitive.ObjectIDFromHex` and hex encoding), `Http` (request, context, stage outcome, handler replies).

The model follows the code as written, including these behaviours a reader might not expect:

- The middleware's own expiry comparison (`int64(exp) < now`, after the library has accepted the token) lets a token whose `exp` equals the current second through. Only the truncated `exp` falling below `now` is "Token expired" at that step. The library's own checks, which run first, are described under "## Left out".
- The `"Bearer "` prefix is sliced off without being checked. The slice counts bytes, so the Authorization header is modelled as the bytes of the Go string. A header shorter than seven bytes makes the Go slice panic, which gin's recovery middleware turns into a 500 with no message. The model returns `Abort(500, "")` rather than excluding that input. A header of four two-byte characters is eight bytes long, so it does not panic and is rejected as an invalid token.
- `POST /api-keys` replies with the struct it bound, not with the stored document. The driver does not write the generated `_id` back, so when the client sends no id the reply shows the zero ObjectID while the collection holds the generated one.
- `Authorize` makes one enforcer call, on one subject. It does not authorize the two identities separately. When both headers are present it first insists that the two identities are equal.
- `Auth` is not wired into any route. The protected group requires both the API key and the token.

## Model

| member | source | states |
|---|---|---|
| `InferObjectActionMiddleware.ActionOf` | middleware/inferObjectActionMiddleware.go:12-23 | GET↔read, POST↔create, PUT or PATCH↔update, DELETE↔delete, and "unknown" exactly for every other method |
| `InferObjectActionMiddleware.ObjectOf` | middleware/inferObjectActionMiddleware.go:26-34 | the inferred object never contains "/", and is "" when no route matched |
| `InferObjectActionMiddleware.ObjectOfSegment` | middleware/inferObjectActionMiddleware.go:26-34 | for a template `prefix/segment/rest…` (no "/" in prefix or segment) the object is exactly `segment`: element 1 of the split |
| `InferObjectActionMiddleware.FirstPiece` | middleware/inferObjectActionMiddleware.go:30 | splitting `segment + rest` on "/" puts `segment` first when `rest` is empty or starts with "/" |
| `InferObjectActionMiddleware.ObjectOfWithoutSlash` | middleware/inferObjectActionMiddleware.go:29-34 | a template with no "/" has no element 1, so the object is "" |
| `InferObjectActionMiddleware.InferObjectAction` | middleware/inferObjectActionMiddleware.go:10-44 | aborts with 400 exactly when the object is "", setting nothing; otherwise it records the object `parts[1]` of the template and the action of the method, and changes nothing else |
| `InferObjectActionMiddleware.InferenceDeterministic` | middleware/inferObjectActionMiddleware.go:12-34 | two requests with the same method and template get the same outcome and the same object and action, whatever their literal paths and headers |
| `InferObjectActionMiddleware.RootTemplateAborts` | middleware/inferObjectActionMiddleware.go:36-39 | the template "/" has an empty first segment and is rejected with 400 |
| `InferObjectActionMiddleware.UpdateExerciseExample` | middleware/inferObjectActionMiddleware.go:18-19 | `PUT /exercises/:id` infers ("exercises", "update") |
| `AuthorizeMiddleware.Subject` | middleware/authorizeMiddleware.go:30-35 | the subject is the e-mail when it is a non-empty string, the API-key user when the e-mail is absent, nil or "", and "" when it is a non-string (failed type assertion) |
| `AuthorizeMiddleware.Authorize` | middleware/authorizeMiddleware.go:17-48 | 401 for a token header without an e-mail and for mismatched identities (no enforcer call); otherwise exactly one query (subject, object, action), with allow → continue unchanged, deny → 403, error → 500 |
| `AuthorizeMiddleware.DualIdentityConsistency` | middleware/authorizeMiddleware.go:23-39 | with both headers present, reaching the enforcer implies the e-mail equals the API-key user and the query's subject is that user |
| `AuthorizeMiddleware.EnforcerErrorIsNotDenial` | middleware/authorizeMiddleware.go:40-43 | an enforcer error aborts with 500, not with the denial status |
| `JwtAuthMiddleware.Truncate` | middleware/jwtAuthMiddleware.go:35 | `int64(exp)` truncates toward zero, for positive and negative values |
| `JwtAuthMiddleware.JwtAuth` | middleware/jwtAuthMiddleware.go:17-44 | empty header → 401, header of fewer than seven bytes → 500, bad signature or non-HMAC → 401 "Invalid token", non-map claims → 401; among tokens the library accepted, a missing, non-numeric or truncated-below-`now` `exp` → 401 "Token expired"; continues exactly when the token is accepted, setting only `user_email` to the raw `email` claim |
| `JwtAuthMiddleware.ExpiryBoundary` | middleware/jwtAuthMiddleware.go:34-38 | in the middleware's own comparison, for a token the library accepted, `exp == now` passes and `exp == now - 1` is "Token expired" |
| `JwtAuthMiddleware.PrefixIgnored` | middleware/jwtAuthMiddleware.go:22 | any seven bytes in front of the token give the same outcome as "Bearer " |
| `JwtAuthMiddleware.MultiByteHeaderIsNotShort` | middleware/jwtAuthMiddleware.go:22-31 | "ññññ" (four characters, eight bytes) does not panic: its last byte goes to the parser, and a parse failure there is 401 "Invalid token" |
| `JwtAuthMiddleware.OnlyHmac` | middleware/jwtAuthMiddleware.go:23-27 | a request that passes carries an HMAC-signed token |
| `ApiKeyMiddleware.ApiKeyAuth` | middleware/apiKeyMiddleware.go:11-33 | empty key → 401 without a lookup, validation fault → 500, invalid key → 401, owner fault → 500; continues exactly when the key is valid and both lookups succeed, recording the owner |
| `ApiKeyMiddleware.OwnerRecordedIsNonEmpty` | middleware/apiKeyMiddleware.go:17-32 | in a well-formed collection the recorded `api_key_user` is never "" |
| `AuthMiddleware.Auth` | middleware/authMiddleware.go:10-42 | the token check runs iff the Authorization header is set and the key check iff x-api-key is set (token first, and a token abort stops there); no header → 401; an abort is passed on unchanged; continues iff every check that ran continued |
| `ApiKeys.ValidateApiKey` | handlers/apiKeys.go:96-111 | true iff some record has that key and is valid; "not found" is `false`, not an error; only a storage fault is an error |
| `ApiKeys.GetApiKeyUser` | handlers/apiKeys.go:113-128 | the account of a valid record with that key, or "" with no error when there is none |
| `ApiKeys.OwnerImpliesValid` | handlers/apiKeys.go:102-119 | a non-empty owner implies the key validates (both use the same filter) |
| `ApiKeys.ValidKeyHasOwner` | handlers/apiKeys.go:102-127 | in a well-formed collection a key that validates has a non-empty owner, the account of a valid record with that key |
| `ApiKeys.NewKeyId` | handlers/apiKeys.go:43 | the stored `_id` is the client's id when it sent a non-zero one, and the one MongoDB generates when it sent none or the zero id (`omitempty` drops a zero id) |
| `ApiKeys.Create` | handlers/apiKeys.go:22-50 | empty body, unbindable body or missing account → 400; a storage fault or an existing id → 500; succeeds iff the body binds, the store works and the id is new; the new record is appended, valid, with the fresh key, the account and the time; the reply equals the stored record except for its id, which is the client's id or the zero id; failures change nothing; well-formedness is preserved |
| `ApiKeys.CreateReplyHidesStoredId` | handlers/apiKeys.go:43-49 | without a client id the reply shows an id different from the one stored |
| `ApiKeys.Invalidate` | handlers/apiKeys.go:52-77 | bad id → 400 with no store access; a fault on a parsed id → 500; unknown id → 404; on success only the matching record's `is_valid` is cleared |
| `ApiKeys.Delete` | handlers/apiKeys.go:172-194 | bad id → 400; a fault on a parsed id → 500; unknown id → 404; on success exactly the matching record is removed and the others keep their order |
| `ApiKeys.ValidateHandler` | handlers/apiKeys.go:79-94 | 200 iff the key validates, 401 "Invalid API key" for an unknown or revoked key, 500 exactly on a fault |
| `ApiKeys.GetByAccount` | handlers/apiKeys.go:130-149 | 200 iff the store works and some record has the account, and then the reply is the first such record; 404 exactly when no record has it; 500 on a fault |
| `ApiKeys.CreatedKeyFoundByAccount` | handlers/apiKeys.go:22-149 | right after a successful create, looking up its account answers 200, with the new stored record when the account had none before |
| `ApiKeys.GetAll` | handlers/apiKeys.go:151-170 | the whole collection, or 500 on a fault |
| `ApiKeys.InvalidateIdempotent` | handlers/apiKeys.go:65-76 | invalidating an already-invalidated key still matches, answers 200 and leaves the store unchanged |
| `ApiKeys.ApplyNeverRevalidates` | handlers/apiKeys.go:37-65 | no create, invalidate or delete turns `is_valid` back on for an existing record, and unique ids stay unique |
| `ApiKeys.ApplyKeepsRevoked` | handlers/apiKeys.go:35-66 | a key that no valid record carries stays so after one write, unless that write creates it |
| `ApiKeys.CreateKeepsRevoked` | handlers/apiKeys.go:35-49 | creating a record with another key does not make a revoked key valid |
| `ApiKeys.InvalidateKeepsRevoked` | handlers/apiKeys.go:65-76 | invalidation never makes a revoked key valid |
| `ApiKeys.DeleteKeepsRevoked` | handlers/apiKeys.go:183-193 | deletion never makes a revoked key valid |
| `ApiKeys.RevokedKeyStaysRevoked` | handlers/apiKeys.go:35-193 | over any sequence of writes whose creations draw other keys, a revoked key stays revoked |
| `ApiKeys.InvalidateRevokes` | handlers/apiKeys.go:65-76 | invalidating the only record that carries a key makes that key fail validation |
| `Permissions.RolesUsersDual` | handlers/permissions.go:128-155 | role ∈ roles-of(user) ⟺ (user, role) is assigned ⟺ user ∈ users-of(role) |
| `Permissions.CreatePermission` | handlers/permissions.go:31-48 | bad body → 400, fault → 500, existing triple → 400 "Permission already exists"; otherwise the triple is added and echoed; failures change nothing |
| `Permissions.DeletePermission` | handlers/permissions.go:50-67 | bad body → 400, fault → 500, absent triple → 404; otherwise exactly that triple is removed |
| `Permissions.AssignUserToRole` | handlers/permissions.go:109-126 | bad body → 400, fault → 500, existing pair → 400; otherwise the pair is added and echoed |
| `Permissions.RemoveUserFromRole` | handlers/permissions.go:157-174 | bad body → 400, fault → 500, unassigned pair → 404; otherwise exactly that pair is removed |
| `Permissions.GetPermissions` | handlers/permissions.go:22-29 | every stored triple, or 500 on a fault |
| `Permissions.GetPermissionsBySubject` | handlers/permissions.go:98-107 | exactly the triples whose subject is the given one; the empty subject is the filter's wildcard and lists all; a fault → 500 |
| `Permissions.GetRolesByUser` | handlers/permissions.go:146-155 | exactly the roles assigned to the user; a fault → 500 |
| `Permissions.GetRoles` | handlers/permissions.go:128-144 | a map from every role to exactly its users; any failed lookup → 500 with no partial map |
| `Permissions.CreateThenDelete` | handlers/permissions.go:31-67 | adding a new triple and removing it restores the policy and answers 200 |
| `Permissions.AssignThenRemove` | handlers/permissions.go:109-174 | assigning a new pair and removing it restores the policy and answers 200 |
| `Permissions.CreateTwiceConflicts` | handlers/permissions.go:38-47 | adding the same triple a second time is the 400 conflict and changes nothing |
| `Authentication.Register` | handlers/authentication.go:26-61 | a registered e-mail → 400 with the registry unchanged; a lookup fault → 500; a hashing failure → 500 "Failed to hash password"; an insert fault → 500; succeeds iff the e-mail is new and hashing and storage work, appending the user with the hashed password; unique e-mails stay unique |
| `Authentication.Login` | handlers/authentication.go:84-132 | a token iff the body binds, the first user with the e-mail has a matching password, and the lookup, role query and signing all work; the token carries that user's id, the e-mail, its roles and `exp = now + 86400`; an unknown e-mail or wrong password → 401; a lookup fault, role fault or signing fault → 500 |
| `Authentication.LoginFailureIsUniform` | handlers/authentication.go:96-109 | an unknown e-mail and a wrong password get the identical 401 reply |
| `Authentication.RegisterApplication` | handlers/authentication.go:63-82 | unbindable body → 400; a fault → 500; otherwise the stored application is always "pending", whatever status the client sent |
| `Authentication.UpdateApplicationStatus` | handlers/authentication.go:195-229 | bad id → 400; unbindable body → 400; a status other than approved or rejected → 400 before storage; a fault → 500; unknown id → 404; on success only that application's status changes; unique ids stay unique |
| `Authentication.GenerateApplicationJwt` | handlers/authentication.go:134-175 | unbindable body → 400; a find fault → 500; 401 when no application with that e-mail is approved; a roles or signing fault → 500; a token iff some application with that e-mail is approved and the lookups and signing work, carrying the id of the first approved match in natural order, the e-mail, its roles and `exp = now + 86400` |
| `Authentication.DeleteApplication` | handlers/authentication.go:231-251 | bad id → 400; a fault on a parsed id → 500; 404 exactly when the id parses, the store works and no application has it; on success exactly that application is removed; unique ids stay unique |
| `Authentication.GetApplications` | handlers/authentication.go:177-193 | every application, or 500 on a fault |
| `Authentication.ApplyAppNeverBackToPending` | handlers/authentication.go:72-219 | no register, update or delete turns a decided application back to pending, and each keeps ids unique |
| `Authentication.ApplyKeepsDecided` | handlers/authentication.go:63-251 | one write keeps every application with a given id decided, unless it registers a new application under that id |
| `Authentication.DecidedStaysDecided` | handlers/authentication.go:63-251 | over any sequence of writes that registers nothing under the id, a decided application never becomes pending again, and ids stay unique |
| `Authentication.NoTokenWhilePending` | handlers/authentication.go:146-150 | while every application with the e-mail is pending, no token is issued |
| `Routes.VerbName` | main.go:52-88 | no route is registered for OPTIONS, and every registered method has a known action |
| `Routes.ResourceName` | main.go:52-88 | every template's first segment is non-empty and free of "/" |
| `Routes.Tail` | main.go:67-88 | the part of a template after its first segment is empty or starts with "/" |
| `Routes.RunStages` | main.go:49-65 | a chain that runs to the end has passed the secure-headers stage only for a non-OPTIONS request, and no stage changes the request |
| `Routes.RouteObject` | main.go:52-88 | every route is authorized as the object named by its first segment |
| `Routes.ProtectedObjects` | main.go:67-88 | every protected route infers "exercises", "api-keys" or "permissions" |
| `Routes.GroupsAreThePermissionsObject` | main.go:85-88 | the `/permissions/groups…` routes infer the object "permissions", like `/permissions` |
| `Routes.Serve` | main.go:46-88 | a handler runs only for a table entry with the request's method and template, never for OPTIONS, and sees the request unchanged |
| `Routes.FindRouteSound` | main.go:52-88 | a route found has the request's method and template; none found means no table entry matches |
| `Routes.PublicRoutesNeedNoCredentials` | main.go:52-58 | `/register`, `/login` and `/ping` reach their handlers whatever the headers, keys, token and policy |
| `Routes.PreflightAnswered` | main.go:49 | an OPTIONS request matches no route and is answered 204 |
| `Routes.UnmatchedRoute` | main.go:46-49 | a request matching no route gets 404, or 204 for a pre-flight |
| `Routes.RunProtectedStages` | main.go:49-65 | the protected chain is the five stages composed in order |
| `Routes.TableLayout` | main.go:52-88 | the public routes come first and serve /register, /login and /ping; every other entry is protected and serves exercises, api-keys or permissions |
| `Routes.NoPublicMatch` | main.go:52-88 | no public template coincides with a protected one |
| `Routes.MatchesProtected` | main.go:61-88 | a request for a protected route's method and template is routed to a protected route, never to a public one |
| `Routes.ProtectedRouteFacts` | main.go:67-88 | a matched route is never OPTIONS, and its template yields a non-empty object |
| `Routes.AdmissionOfChain` | main.go:61-65 | the protected chain continues iff the request is admitted (valid key, accepted token whose e-mail is the key's owner, enforcer allows) |
| `Routes.ProtectedAdmission` | main.go:61-88 | a protected route's handler runs iff the request is admitted |
| `Routes.BothCredentialsRequired` | main.go:62-63 | a request that reaches a protected handler carries both headers, an accepted token whose e-mail is the key's owner, and a valid record with that key |
| `Routes.AuthAdmitsWhatTheChainRejects` | main.go:61-65 | a valid key without a token passes the unused `Auth` composer but is rejected by the wired chain with 401 |
| `Config.MaskUri` | config/config.go:38-43 | unchanged up to 30 bytes; beyond that 23 bytes, the first 10 and last 10 kept around "..."; never longer than the input |
| `Config.MaskIdempotent` | config/config.go:38-43 | masking a masked URI changes nothing |
| `Config.MaskHidesMiddle` | config/config.go:40 | two URIs longer than 30 bytes that agree on their first and last 10 bytes mask identically, whatever their lengths |
| `SecureMiddleware.SecureHeaders` | middleware/secureMiddleware.go:29-34 | aborts with 204 iff the method is OPTIONS; otherwise passes the context on unchanged |
| `ObjectIds.ParseObjectId` | handlers/apiKeys.go:54 | an id parses iff it is 24 hex digits, and then it is their decoding |
| `ObjectIds.HexParses` | handlers/authentication.go:120 | the hex form of every ObjectID parses back to it |
| `ObjectIds.DecodeEncode` | handlers/apiKeys.go:54 | hex decoding inverts hex encoding |
| `ObjectIds.EncodeHex` | handlers/authentication.go:120 | the encoding has two hex digits per byte |
| `ObjectIds.DecodeHex` | handlers/apiKeys.go:54 | decoding halves the length |
| `ObjectIds.HexDigit` | handlers/authentication.go:120 | each digit written reads back as its value, in lower case |
| `ObjectIds.HexValue` | handlers/apiKeys.go:54 | a hex digit's value is below 16 |
| `ObjectIds.Hex` | handlers/authentication.go:120 | the hex form of an ObjectID has 24 characters, as written into the `user_id` claim here and the `application_id` claim at line 164 |
| `Strings.Split` | middleware/inferObjectActionMiddleware.go:30 | at least one piece, none containing the separator |
| `Strings.JoinSplit` | middleware/inferObjectActionMiddleware.go:30 | joining the pieces with the separator gives back the string |
| `Strings.SplitJoin` | middleware/inferObjectActionMiddleware.go:30 | splitting pieces that do not contain the separator, once joined, gives the pieces back |
| `Strings.SplitNoSeparator` | middleware/inferObjectActionMiddleware.go:30 | a string without the separator splits into itself alone |
| `Strings.SplitPrefix` | middleware/inferObjectActionMiddleware.go:30 | splitting `p + sep + t` gives `p` followed by the pieces of `t` |
| `Storage.FindFirst` | handlers/apiKeys.go:102 | `FindOne` in natural order: the index of the first match, or none when nothing matches |
| `Storage.RemoveAt` | handlers/apiKeys.go:183 | `DeleteOne` removes one element and keeps the rest in order |

## Left out

- MongoDB I/O, connection handling and the 5-second timeouts: every collection is an in-memory sequence (natural order) or set, and each storage call has a `fault` parameter for its error.
- bcrypt hashing and comparison, and JWT signing and signature checking, are parameters. The parsed token is an abstract record (signing family, validity, claims). The library's own claim validation is folded into its `valid` flag.
- casbin: `Enforce` is a function parameter. The RBAC model file (rbac_model.conf) is not part of this model, so no role-inheritance semantics are asserted. For writes, the order in which casbin checks existence and calls its adapter is not visible, so a storage fault takes precedence over conflict and not-found.
- The empty-subject case of `GetPermissionsBySubject` follows casbin's filtered-policy semantics, where an empty field value matches every subject. The handler itself does not special-case it.
- `JwtAuthMiddleware.JwtAuth`: the JWT library's own validation is folded into the parser's `valid` flag. The library (golang-jwt v5, called with no options) rejects an `exp` at or before the current second, and a non-numeric `exp`, before the middleware's comparison runs, answering 401 "Invalid token". So in the running program only a missing `exp` reaches "Token expired"; the model's expiry clauses describe the middleware's own comparison on line 35.
- `JwtAuthMiddleware.Truncate`: `int64(exp)` for values outside the 64-bit range (implementation-defined in Go) is not modelled.
- The `X-API-Key` lookup and owner lookup read one snapshot of the key collection. The race between them, and policy reloading, are not modelled.
- gin's chain mechanics: re-entrant `c.Next()` when `Auth` invokes other middlewares, the debug printing of context keys, and JSON binding beyond "binds or not".
- Routing of literal paths to templates: a request carries the template gin matched. Route parameters are not extracted.
- Security headers and CORS headers written by the secure-headers stage: only its OPTIONS answer is modelled.
- The exercise and routine handlers are thin CRUD wrappers over the database and are only named in the route table. `UpdatePermission` is not routed and writes the policy collection directly, so it is left out.
- `config.Load`, `uuid.New` and `time.Now`: fresh keys, fresh ids and the clock are parameters.
- The application handlers (`RegisterApplication` … `GetApplications`) are modelled although `main.go` registers no route for them; they are not in the route table.
- `models.Application` is not part of this model's source files. Its fields (id, e-mail, status, creation time) are inferred from how the handlers use it.
- Response bodies for driver and binder errors (`err.Error()`) are stand-in constants.

=== FILE: api_key_middleware.dfy ===
/**
 `APIKeyAuthMiddleware` from middleware/apiKeyMiddleware.go: requires the X-API-Key header,
 validates it against the key collection and records the key's owner as `api_key_user`.
 The two store calls it makes are modelled on one snapshot of the collection, each with its
 own fault flag.
 */
module ApiKeyMiddleware {
  import opened Wrappers
  import opened Http
  import opened Storage
  import opened ApiKeys

  const KeyRequiredMessage := "API key required"
  const InternalErrorMessage := "Internal server error"

  function ApiKeyAuth(ctx: Context, keys: Store, validateFault: bool, ownerFault: bool): (r: StageResult)
    ensures ctx.request.apiKey == "" ==> r == Abort(StatusUnauthorized, KeyRequiredMessage)
    ensures ctx.request.apiKey != "" && validateFault ==> r == Abort(StatusInternalServerError, InternalErrorMessage)
    ensures ctx.request.apiKey != "" && !validateFault && !HasValidKey(keys, ctx.request.apiKey) ==>
      r == Abort(StatusUnauthorized, InvalidKeyMessage)
    ensures ctx.request.apiKey != "" && !validateFault && HasValidKey(keys, ctx.request.apiKey) && ownerFault ==>
      r == Abort(StatusInternalServerError, InternalErrorMessage)
    ensures r.Continue? <==>
      ctx.request.apiKey != "" && !validateFault && !ownerFault && HasValidKey(keys, ctx.request.apiKey)
    ensures r.Continue? ==>
      && r.ctx == ctx.(apiKeyUser := Some(Owner(keys, ctx.request.apiKey)))
      && exists i :: 0 <= i < |keys| && keys[i].key == ctx.request.apiKey && keys[i].isValid
           && keys[i].account == Owner(keys, ctx.request.apiKey)
  {
    var k := ctx.request.apiKey;
    if k == "" then Abort(StatusUnauthorized, KeyRequiredMessage)
    else match ValidateApiKey(keys, k, validateFault)
      case StoreFault => Abort(StatusInternalServerError, InternalErrorMessage)
      case Done(valid) =>
        if !valid then Abort(StatusUnauthorized, InvalidKeyMessage)
        else match GetApiKeyUser(keys, k, ownerFault)
          case StoreFault => Abort(StatusInternalServerError, InternalErrorMessage)
          case Done(user) => Continue(ctx.(apiKeyUser := Some(user)))
  }

  /** Against a well-formed collection the recorded owner is never empty. */
  lemma OwnerRecordedIsNonEmpty(ctx: Context, keys: Store, validateFault: bool, ownerFault: bool)
    requires WellFormed(keys)
    requires ApiKeyAuth(ctx, keys, validateFault, ownerFault).Continue?
    ensures ApiKeyAuth(ctx, keys, validateFault, ownerFault).ctx.apiKeyUser.value != ""
  {
    ValidKeyHasOwner(keys, ctx.request.apiKey);
  }
}

=== FILE: api_keys.dfy ===
/**
 handlers/apiKeys.go: the `api_keys` collection and the handlers that create, invalidate,
 validate, look up and delete key records.
 */
module ApiKeys {
  import opened Wrappers
  import opened Http
  import opened ObjectIds
  import opened Storage

  /** One document of the `api_keys` collection (models/apiKey.go). */
  datatype ApiKey = ApiKey(id: ObjectId, key: string, createdAt: int, isValid: bool, account: string)

  /** The collection, in natural order. */
  type Store = seq<ApiKey>

  /** What `Create` binds from the body: the required account and, optionally, a client-chosen id.
      The other fields a client may send are overwritten by the handler. */
  datatype KeyRequest = KeyRequest(account: string, id: Option<ObjectId>)

  const EmptyBodyMessage := "Empty request body"
  const InvalidIdMessage := "Invalid ID format"
  const KeyNotFoundMessage := "API key not found"
  const AccountNotFoundMessage := "API key not found for account"
  const InvalidKeyMessage := "Invalid API key"
  const InvalidatedMessage := "API key invalidated"
  const DeletedMessage := "API key deleted"
  const ValidMessage := "API key is valid"

  /** `_id` is unique in a MongoDB collection. */
  predicate UniqueIds(s: Store)
  {
    forall i, j :: 0 <= i < j < |s| ==> s[i].id != s[j].id
  }

  /** The invariant every reachable collection keeps: unique ids, and an account on every
      record (binding requires a non-empty account and nothing else writes one). */
  predicate WellFormed(s: Store)
  {
    UniqueIds(s) && forall i :: 0 <= i < |s| ==> s[i].account != ""
  }

  predicate HasId(s: Store, id: ObjectId)
  {
    exists i :: 0 <= i < |s| && s[i].id == id
  }

  /** Some record carries key `k` and is still valid. */
  predicate HasValidKey(s: Store, k: string)
  {
    exists i :: 0 <= i < |s| && s[i].key == k && s[i].isValid
  }

  /** The filter `{_id: id}`. */
  function IdIs(id: ObjectId): ApiKey -> bool
  {
    (a: ApiKey) => a.id == id
  }

  /** The filter `{api_key: k, is_valid: true}`. */
  function ValidKeyIs(k: string): ApiKey -> bool
  {
    (a: ApiKey) => a.key == k && a.isValid
  }

  /** The filter `{account: account}`. */
  function AccountIs(account: string): ApiKey -> bool
  {
    (a: ApiKey) => a.account == account
  }

  /** `ValidateApiKey`: a `FindOne` on `{api_key: k, is_valid: true}`. No match is `false`,
      not an error; only a storage fault is an error. */
  function ValidateApiKey(s: Store, k: string, fault: bool): (r: StoreResult<bool>)
    ensures r.StoreFault? <==> fault
    ensures r.Done? ==> (r.value <==> HasValidKey(s, k))
  {
    if fault then StoreFault
    else Done(FindFirst(s, ValidKeyIs(k)).Some?)
  }

  /** `GetApiKeyUser`: the account of the first valid record with key `k`, or "" (and no error)
      when there is none. */
  function GetApiKeyUser(s: Store, k: string, fault: bool): (r: StoreResult<string>)
    ensures r.StoreFault? <==> fault
    ensures r.Done? && !HasValidKey(s, k) ==> r.value == ""
    ensures r.Done? && HasValidKey(s, k) ==>
      exists i :: 0 <= i < |s| && s[i].key == k && s[i].isValid && s[i].account == r.value
  {
    if fault then StoreFault
    else match FindFirst(s, ValidKeyIs(k))
      case None => Done("")
      case Some(i) => Done(s[i].account)
  }

  /** The owner the middleware records for key `k` when the lookup does not fail. */
  function Owner(s: Store, k: string): string
  {
    GetApiKeyUser(s, k, false).value
  }

  /** Both lookups use the same filter, so a non-empty owner means the key validates. */
  lemma OwnerImpliesValid(s: Store, k: string)
    requires Owner(s, k) != ""
    ensures ValidateApiKey(s, k, false) == Done(true)
  {
  }

  /** In a well-formed collection a valid key always has a non-empty owner. */
  lemma ValidKeyHasOwner(s: Store, k: string)
    requires WellFormed(s)
    requires ValidateApiKey(s, k, false) == Done(true)
    ensures Owner(s, k) != ""
    ensures exists i :: 0 <= i < |s| && s[i].key == k && s[i].isValid && s[i].account == Owner(s, k)
  {
  }

  /** The id a created record gets: the client's id when it sent a non-zero one, otherwise
      the one MongoDB assigns (`freshId`). */
  function NewKeyId(req: KeyRequest, freshId: ObjectId): (id: ObjectId)
    ensures req.id.Some? && !IsZero(req.id.value) ==> id == req.id.value
    ensures req.id.None? || IsZero(req.id.value) ==> id == freshId
  {
    if req.id.Some? && !IsZero(req.id.value) then req.id.value else freshId
  }

  /** The id the bound struct holds: the client's id, or the zero id when it sent none. */
  function BoundId(req: KeyRequest): ObjectId
  {
    if req.id.Some? then req.id.value else ZeroId
  }

  /** `Create`: an empty body is 400; an unbindable body or a missing account is 400; otherwise a
      record with a fresh key (`uuid.New`), the current time and `IsValid = true` is inserted.
      Inserting an `_id` that already exists fails like any other storage fault. The reply is the
      bound struct itself: the driver does not write the generated `_id` back into it, so the
      reply carries the client's id, or the zero id when the client sent none. */
  function Create(s: Store, body: Body<KeyRequest>, freshKey: string, freshId: ObjectId, now: int, fault: bool)
    : (r: Step<Store, ApiKey>)
    ensures body.EmptyBody? ==> r == Step(s, Fail(StatusBadRequest, EmptyBodyMessage))
    ensures r.reply.Ok? <==>
      body.Body? && body.fields.account != "" && !fault && !HasId(s, NewKeyId(body.fields, freshId))
    ensures r.reply.Ok? ==>
      && |r.state| == |s| + 1 && r.state[..|s|] == s
      && r.state[|s|] == r.reply.value.(id := NewKeyId(body.fields, freshId))
      && r.reply.value.isValid && r.reply.value.key == freshKey
      && r.reply.value.account == body.fields.account
      && r.reply.value.createdAt == now
      && !HasId(s, r.state[|s|].id)
    ensures r.reply.Ok? && body.fields.id.Some? ==> r.reply.value.id == body.fields.id.value
    ensures r.reply.Ok? && body.fields.id.None? ==> IsZero(r.reply.value.id)
    ensures r.reply.Fail? ==> r.state == s
    ensures r.reply.Fail? ==> r.reply.status in {StatusBadRequest, StatusInternalServerError}
    ensures body.Malformed? || (body.Body? && body.fields.account == "") ==>
      r == Step(s, Fail(StatusBadRequest, BindErrorMessage))
    ensures body.Body? && body.fields.account != "" && (fault || HasId(s, NewKeyId(body.fields, freshId))) ==>
      r == Step(s, Fail(StatusInternalServerError, StoreErrorMessage))
    ensures WellFormed(s) ==> WellFormed(r.state)
  {
    match body
    case EmptyBody => Step(s, Fail(StatusBadRequest, EmptyBodyMessage))
    case Malformed => Step(s, Fail(StatusBadRequest, BindErrorMessage))
    case Body(req) =>
      if req.account == "" then Step(s, Fail(StatusBadRequest, BindErrorMessage))
      else
        var id := NewKeyId(req, freshId);
        if fault || FindFirst(s, IdIs(id)).Some? then
          Step(s, Fail(StatusInternalServerError, StoreErrorMessage))
        else
          var bound := ApiKey(BoundId(req), freshKey, now, true, req.account);
          Step(s + [bound.(id := id)], Ok(bound))
  }

  /** When the client sends no id, the reply's id is not the stored record's: the client is
      shown the zero id while MongoDB keeps the id it generated. */
  lemma CreateReplyHidesStoredId(s: Store, account: string, freshKey: string, freshId: ObjectId, now: int)
    requires account != "" && !IsZero(freshId) && !HasId(s, freshId)
    ensures var r := Create(s, Body(KeyRequest(account, None)), freshKey, freshId, now, false);
      && r.reply.Ok? && r.state[|s|].id == freshId && r.reply.value.id != r.state[|s|].id
  {
  }

  /** `Invalidate`: a malformed id is 400 before the store is touched; an unknown id is 404;
      otherwise `is_valid` is cleared on the matching record and nothing else changes. */
  function Invalidate(s: Store, idText: string, fault: bool): (r: Step<Store, string>)
    ensures ParseObjectId(idText).None? ==> r == Step(s, Fail(StatusBadRequest, InvalidIdMessage))
    ensures r.reply.Ok? <==> ParseObjectId(idText).Some? && !fault && HasId(s, ParseObjectId(idText).value)
    ensures r.reply == Fail(StatusNotFound, KeyNotFoundMessage) <==>
      ParseObjectId(idText).Some? && !fault && !HasId(s, ParseObjectId(idText).value)
    ensures ParseObjectId(idText).Some? && fault ==> r == Step(s, Fail(StatusInternalServerError, StoreErrorMessage))
    ensures r.reply.Ok? ==>
      exists i :: 0 <= i < |s| && s[i].id == ParseObjectId(idText).value && r.state == s[i := s[i].(isValid := false)]
    ensures r.reply.Fail? ==> r.state == s
    ensures WellFormed(s) ==> WellFormed(r.state)
  {
    match ParseObjectId(idText)
    case None => Step(s, Fail(StatusBadRequest, InvalidIdMessage))
    case Some(id) =>
      if fault then Step(s, Fail(StatusInternalServerError, StoreErrorMessage))
      else match FindFirst(s, IdIs(id))
        case None => Step(s, Fail(StatusNotFound, KeyNotFoundMessage))
        case Some(i) => Step(s[i := s[i].(isValid := false)], Ok(InvalidatedMessage))
  }

  /** `Delete`: a malformed id is 400; an unknown id is 404; otherwise exactly the matching
      record is removed and the others keep their order. */
  function Delete(s: Store, idText: string, fault: bool): (r: Step<Store, string>)
    ensures ParseObjectId(idText).None? ==> r == Step(s, Fail(StatusBadRequest, InvalidIdMessage))
    ensures r.reply.Ok? <==> ParseObjectId(idText).Some? && !fault && HasId(s, ParseObjectId(idText).value)
    ensures r.reply == Fail(StatusNotFound, KeyNotFoundMessage) <==>
      ParseObjectId(idText).Some? && !fault && !HasId(s, ParseObjectId(idText).value)
    ensures ParseObjectId(idText).Some? && fault ==> r == Step(s, Fail(StatusInternalServerError, StoreErrorMessage))
    ensures r.reply.Ok? ==>
      exists i :: 0 <= i < |s| && s[i].id == ParseObjectId(idText).value && r.state == s[..i] + s[i + 1..]
    ensures r.reply.Ok? && UniqueIds(s) ==> !HasId(r.state, ParseObjectId(idText).value)
    ensures r.reply.Fail? ==> r.state == s
    ensures WellFormed(s) ==> WellFormed(r.state)
  {
    match ParseObjectId(idText)
    case None => Step(s, Fail(StatusBadRequest, InvalidIdMessage))
    case Some(id) =>
      if fault then Step(s, Fail(StatusInternalServerError, StoreErrorMessage))
      else match FindFirst(s, IdIs(id))
        case None => Step(s, Fail(StatusNotFound, KeyNotFoundMessage))
        case Some(i) => Step(RemoveAt(s, i), Ok(DeletedMessage))
  }

  /** `Validate` (GET /api-keys/validate/:api_key): 200 for a valid key, 401 otherwise,
      500 on a storage fault. */
  function ValidateHandler(s: Store, k: string, fault: bool): (r: Reply<string>)
    ensures r.Ok? <==> !fault && HasValidKey(s, k)
    ensures r.Fail? ==> (r.status == StatusInternalServerError <==> fault)
    ensures !fault && !HasValidKey(s, k) ==> r == Fail(StatusUnauthorized, InvalidKeyMessage)
  {
    match ValidateApiKey(s, k, fault)
    case StoreFault => Fail(StatusInternalServerError, StoreErrorMessage)
    case Done(valid) => if valid then Ok(ValidMessage) else Fail(StatusUnauthorized, InvalidKeyMessage)
  }

  /** `GetByAccount`: the first record of the account, valid or not; 404 when there is none. */
  function GetByAccount(s: Store, account: string, fault: bool): (r: Reply<ApiKey>)
    ensures r.Ok? <==> !fault && exists i :: 0 <= i < |s| && s[i].account == account
    ensures r.Ok? ==>
      exists i :: (0 <= i < |s| && s[i].account == account && r.value == s[i]
                   && forall j :: 0 <= j < i ==> s[j].account != account)
    ensures r == Fail(StatusNotFound, AccountNotFoundMessage) <==>
      !fault && forall i :: 0 <= i < |s| ==> s[i].account != account
    ensures fault ==> r == Fail(StatusInternalServerError, StoreErrorMessage)
  {
    if fault then Fail(StatusInternalServerError, StoreErrorMessage)
    else match FindFirst(s, AccountIs(account))
      case None => Fail(StatusNotFound, AccountNotFoundMessage)
      case Some(i) => Ok(s[i])
  }

  /** `GetAll`: every record, or 500. */
  function GetAll(s: Store, fault: bool): (r: Reply<Store>)
    ensures r.Ok? <==> !fault
    ensures r.Fail? ==> r == Fail(StatusInternalServerError, StoreErrorMessage)
    ensures r.Ok? ==> r.value == s
  {
    if fault then Fail(StatusInternalServerError, StoreErrorMessage) else Ok(s)
  }

  /** A created key can be looked up by its account at once; when the account had no key
      before, the lookup returns the stored record, with the id MongoDB keeps. */
  lemma CreatedKeyFoundByAccount(s: Store, body: Body<KeyRequest>, freshKey: string, freshId: ObjectId,
                                 now: int, fault: bool)
    requires body.Body? && body.fields.account != "" && !fault && !HasId(s, NewKeyId(body.fields, freshId))
    ensures var r := Create(s, body, freshKey, freshId, now, fault);
      GetByAccount(r.state, body.fields.account, false).Ok?
    ensures var r := Create(s, body, freshKey, freshId, now, fault);
      (forall i :: 0 <= i < |s| ==> s[i].account != body.fields.account) ==>
        GetByAccount(r.state, body.fields.account, false) == Ok(r.state[|s|])
  {
    var r := Create(s, body, freshKey, freshId, now, fault);
    assert r.state[|s|].account == body.fields.account;
    if forall i :: 0 <= i < |s| ==> s[i].account != body.fields.account {
      forall j | 0 <= j < |s|
        ensures r.state[j].account != body.fields.account
      {
        assert r.state[j] == r.state[..|s|][j];
      }
    }
  }

  /** Invalidating twice is invalidating once: the second call still matches the record,
      answers 200 and changes nothing. */
  lemma InvalidateIdempotent(s: Store, idText: string, fault: bool)
    requires Invalidate(s, idText, fault).reply.Ok?
    ensures var s' := Invalidate(s, idText, fault).state;
      Invalidate(s', idText, false) == Step(s', Ok(InvalidatedMessage))
  {
    var id := ParseObjectId(idText).value;
    var f := FindFirst(s, IdIs(id)).value;
    var s' := s[f := s[f].(isValid := false)];
    assert Invalidate(s, idText, fault).state == s';
    assert IdIs(id)(s'[f]);
    var g := FindFirst(s', IdIs(id)).value;
    assert g == f;
    assert s'[f := s'[f].(isValid := false)] == s';
  }

  /** The write operations on the collection. */
  datatype KeyOp =
    | CreateOp(body: Body<KeyRequest>, freshKey: string, freshId: ObjectId, now: int, createFault: bool)
    | InvalidateOp(idText: string, invalidateFault: bool)
    | DeleteOp(deleteId: string, deleteFault: bool)

  function Apply(s: Store, op: KeyOp): Store
  {
    match op
    case CreateOp(body, freshKey, freshId, now, fault) => Create(s, body, freshKey, freshId, now, fault).state
    case InvalidateOp(idText, fault) => Invalidate(s, idText, fault).state
    case DeleteOp(idText, fault) => Delete(s, idText, fault).state
  }

  function ApplyAll(s: Store, ops: seq<KeyOp>): Store
    decreases |ops|
  {
    if |ops| == 0 then s else ApplyAll(Apply(s, ops[0]), ops[1..])
  }

  /** A record that was invalid before is still invalid after, if it still exists. */
  predicate NeverRevalidated(before: Store, after: Store)
  {
    forall i, j :: 0 <= i < |before| && 0 <= j < |after| && before[i].id == after[j].id && !before[i].isValid
      ==> !after[j].isValid
  }

  /** No write sets `is_valid` back to true on an existing record. */
  lemma ApplyNeverRevalidates(s: Store, op: KeyOp)
    requires UniqueIds(s)
    ensures NeverRevalidated(s, Apply(s, op))
    ensures UniqueIds(Apply(s, op))
  {
    var t := Apply(s, op);
    forall i, j | 0 <= i < |s| && 0 <= j < |t| && s[i].id == t[j].id && !s[i].isValid
      ensures !t[j].isValid
    {
      match op
      case CreateOp(body, freshKey, freshId, now, fault) =>
      case InvalidateOp(idText, fault) =>
      case DeleteOp(idText, fault) =>
        var r := Delete(s, idText, fault);
        if r.reply.Ok? {
          var k :| 0 <= k < |s| && s[k].id == ParseObjectId(idText).value && t == s[..k] + s[k + 1..];
          if j < k {
            assert t[j] == s[j];
          } else {
            assert t[j] == s[j + 1];
          }
        }
    }
  }

  /** One write cannot make a revoked key valid again unless it creates a record with that key. */
  lemma ApplyKeepsRevoked(s: Store, op: KeyOp, k: string)
    requires !HasValidKey(s, k)
    requires op.CreateOp? ==> op.freshKey != k
    ensures !HasValidKey(Apply(s, op), k)
  {
    match op
    case CreateOp(body, freshKey, freshId, now, fault) =>
      CreateKeepsRevoked(s, Create(s, body, freshKey, freshId, now, fault), k);
    case InvalidateOp(idText, fault) =>
      InvalidateKeepsRevoked(s, idText, fault, k);
    case DeleteOp(idText, fault) =>
      DeleteKeepsRevoked(s, idText, fault, k);
  }

  lemma CreateKeepsRevoked(s: Store, r: Step<Store, ApiKey>, k: string)
    requires !HasValidKey(s, k)
    requires r.reply.Ok? ==> |r.state| == |s| + 1 && r.state[..|s|] == s && r.state[|s|].key != k
    requires r.reply.Fail? ==> r.state == s
    ensures !HasValidKey(r.state, k)
  {
    if r.reply.Ok? {
      var t := r.state;
      forall j | 0 <= j < |t| && t[j].key == k
        ensures !t[j].isValid
      {
        assert j < |s| && t[j] == s[j];
      }
    }
  }

  lemma InvalidateKeepsRevoked(s: Store, idText: string, fault: bool, k: string)
    requires !HasValidKey(s, k)
    ensures !HasValidKey(Invalidate(s, idText, fault).state, k)
  {
    var r := Invalidate(s, idText, fault);
    if r.reply.Ok? {
      var i :| 0 <= i < |s| && s[i].id == ParseObjectId(idText).value && r.state == s[i := s[i].(isValid := false)];
      forall j | 0 <= j < |r.state| && r.state[j].key == k
        ensures !r.state[j].isValid
      {
        if j != i {
          assert r.state[j] == s[j];
        }
      }
    }
  }

  lemma DeleteKeepsRevoked(s: Store, idText: string, fault: bool, k: string)
    requires !HasValidKey(s, k)
    ensures !HasValidKey(Delete(s, idText, fault).state, k)
  {
    var r := Delete(s, idText, fault);
    if r.reply.Ok? {
      var i :| 0 <= i < |s| && s[i].id == ParseObjectId(idText).value && r.state == s[..i] + s[i + 1..];
      forall j | 0 <= j < |r.state| && r.state[j].key == k
        ensures !r.state[j].isValid
      {
        if j < i {
          assert r.state[j] == s[j];
        } else {
          assert r.state[j] == s[j + 1];
        }
      }
    }
  }

  /** Once no valid record carries key `k`, none ever does again, as long as no later
      `Create` draws `k` as its fresh key (keys are random UUIDs). */
  lemma {:induction false} RevokedKeyStaysRevoked(s: Store, ops: seq<KeyOp>, k: string)
    requires !HasValidKey(s, k)
    requires forall i :: 0 <= i < |ops| && ops[i].CreateOp? ==> ops[i].freshKey != k
    ensures !HasValidKey(ApplyAll(s, ops), k)
    decreases |ops|
  {
    if |ops| > 0 {
      ApplyKeepsRevoked(s, ops[0], k);
      var rest := ops[1..];
      forall i | 0 <= i < |rest| && rest[i].CreateOp?
        ensures rest[i].freshKey != k
      {
        assert rest[i] == ops[i + 1];
      }
      RevokedKeyStaysRevoked(Apply(s, ops[0]), rest, k);
    }
  }

  /** Invalidating the only record that carries `k` makes `k` fail validation. */
  lemma InvalidateRevokes(s: Store, idText: string, k: string)
    requires UniqueIds(s)
    requires Invalidate(s, idText, false).reply.Ok?
    requires forall i :: 0 <= i < |s| && s[i].key == k ==> s[i].id == ParseObjectId(idText).value
    ensures ValidateApiKey(Invalidate(s, idText, false).state, k, false) == Done(false)
  {
    var t := Invalidate(s, idText, false).state;
    var i :| 0 <= i < |s| && s[i].id == ParseObjectId(idText).value && t == s[i := s[i].(isValid := false)];
    forall j | 0 <= j < |t| && t[j].key == k
      ensures !t[j].isValid
    {
      assert s[j].key == k;
      assert s[j].id == s[i].id;
      assert j == i;
    }
  }
}

=== FILE: auth_middleware.dfy ===
/**
 `Auth` from middleware/authMiddleware.go: an "either credential" composer that runs the token
 check when an Authorization header is present and then the key check when an x-api-key header
 is present. The router never installs it. The two checks are parameters, as in the source;
 `ran` records which of them were invoked, in order.
 */
module AuthMiddleware {
  import opened Http

  datatype Check = TokenCheck | KeyCheck

  datatype AuthResult = AuthResult(result: StageResult, ran: seq<Check>)

  const CredentialRequiredMessage := "Authorization header or API key required"

  /** The context the key check sees: the token check's output when it ran and passed. */
  function AfterTokenCheck(ctx: Context, tokenCheck: Context -> StageResult): Context
  {
    if ctx.request.authorization != [] && tokenCheck(ctx).Continue? then tokenCheck(ctx).ctx else ctx
  }

  function Auth(ctx: Context, tokenCheck: Context -> StageResult, keyCheck: Context -> StageResult): (r: AuthResult)
    ensures (TokenCheck in r.ran) <==> ctx.request.authorization != []
    ensures (KeyCheck in r.ran) <==>
      ctx.request.apiKey != "" && (ctx.request.authorization == [] || tokenCheck(ctx).Continue?)
    ensures |r.ran| == 2 ==> r.ran == [TokenCheck, KeyCheck]
    ensures |r.ran| <= 2
    ensures ctx.request.authorization == [] && ctx.request.apiKey == "" ==>
      r.result == Abort(StatusUnauthorized, CredentialRequiredMessage)
    ensures ctx.request.authorization != [] && tokenCheck(ctx).Abort? ==> r.result == tokenCheck(ctx)
    ensures KeyCheck in r.ran && keyCheck(AfterTokenCheck(ctx, tokenCheck)).Abort? ==>
      r.result == keyCheck(AfterTokenCheck(ctx, tokenCheck))
    ensures r.result.Continue? <==>
      && (ctx.request.authorization != [] || ctx.request.apiKey != "")
      && (ctx.request.authorization != [] ==> tokenCheck(ctx).Continue?)
      && (ctx.request.apiKey != "" ==> keyCheck(AfterTokenCheck(ctx, tokenCheck)).Continue?)
  {
    var afterToken :=
      if ctx.request.authorization == [] then AuthResult(Continue(ctx), [])
      else AuthResult(tokenCheck(ctx), [TokenCheck]);
    if afterToken.result.Abort? then afterToken
    else
      var afterKey :=
        if ctx.request.apiKey == "" then afterToken
        else AuthResult(keyCheck(afterToken.result.ctx), afterToken.ran + [KeyCheck]);
      if afterKey.result.Abort? then afterKey
      else if afterKey.ran == [] then AuthResult(Abort(StatusUnauthorized, CredentialRequiredMessage), [])
      else afterKey
  }
}

=== FILE: authentication.dfy ===
/**
 handlers/authentication.go: the user registry, the application registry with its status
 lifecycle (pending, then approved or rejected), and token issuance. Password hashing and
 token signing are parameters: `hashed` is bcrypt's output (None when hashing fails),
 `passwordMatches` is bcrypt's comparison, and a signed token is represented by its claims.
 */
module Authentication {
  import opened Wrappers
  import opened Http
  import opened ObjectIds
  import opened Storage
  import Permissions

  /** A document of the `users` collection (models/user.go); the password is stored hashed. */
  datatype User = User(id: ObjectId, email: string, passwordHash: string)

  /** The bound body of `/register` and `/login`; both fields are required. */
  datatype Credentials = Credentials(email: string, password: string)

  /** A document of the `applications` collection. */
  datatype Application = Application(id: ObjectId, email: string, status: string, createdAt: int)

  /** What the application handlers bind: the e-mail and whatever status the client sent. */
  datatype ApplicationRequest = ApplicationRequest(email: string, status: string)

  datatype IdClaim = UserId(userHex: string) | ApplicationId(appHex: string)

  /** The claims of an issued HS256 token. */
  datatype TokenClaims = TokenClaims(id: IdClaim, email: string, roles: set<string>, exp: int)

  const Pending := "pending"
  const Approved := "approved"
  const Rejected := "rejected"

  /** Tokens live 24 hours; `exp` is in Unix seconds. */
  const TokenLifetime := 24 * 60 * 60

  const UserExistsMessage := "User already exists"
  const HashFailedMessage := "Failed to hash password"
  const RegisteredMessage := "User registered successfully"
  const AppRegisteredMessage := "Application registered successfully"
  const BadCredentialsMessage := "Invalid email or password"
  const UserRolesFailedMessage := "Failed to get user roles"
  const AppRolesFailedMessage := "Failed to get application roles"
  const SignFailedMessage := "Failed to generate token"
  const NotApprovedMessage := "Invalid application or not approved"
  const InvalidIdMessage := "Invalid ID format"
  const InvalidStatusMessage := "Invalid status value"
  const AppNotFoundMessage := "Application not found"
  const StatusUpdatedMessage := "Application status updated"
  const AppDeletedMessage := "Application deleted"

  predicate BindsCredentials(body: Body<Credentials>)
  {
    body.Body? && body.fields.email != "" && body.fields.password != ""
  }

  function EmailIs(email: string): User -> bool
  {
    (u: User) => u.email == email
  }

  function UserIdIs(id: ObjectId): User -> bool
  {
    (u: User) => u.id == id
  }

  function AppIdIs(id: ObjectId): Application -> bool
  {
    (a: Application) => a.id == id
  }

  /** The filter `{email: email, status: "approved"}`. */
  function ApprovedEmailIs(email: string): Application -> bool
  {
    (a: Application) => a.email == email && a.status == Approved
  }

  predicate EmailRegistered(users: seq<User>, email: string)
  {
    exists i :: 0 <= i < |users| && users[i].email == email
  }

  /** `users[i]` is the user `FindOne({email})` returns: the first one with that e-mail. */
  predicate FirstWithEmail(users: seq<User>, email: string, i: int)
  {
    0 <= i < |users| && users[i].email == email && forall j :: 0 <= j < i ==> users[j].email != email
  }

  /** The first user with the e-mail exists and the password matches its stored hash. */
  predicate CredentialsMatch(users: seq<User>, creds: Credentials, passwordMatches: (string, string) -> bool)
  {
    exists i :: 0 <= i < |users| && FirstWithEmail(users, creds.email, i) && passwordMatches(users[i].passwordHash, creds.password)
  }

  /** `apps[i]` is the application `FindOne({email, status: "approved"})` returns: the first
      approved one with that e-mail. */
  predicate FirstApproved(apps: seq<Application>, email: string, i: int)
  {
    && 0 <= i < |apps| && apps[i].email == email && apps[i].status == Approved
    && forall j :: 0 <= j < i ==> !(apps[j].email == email && apps[j].status == Approved)
  }

  predicate UniqueEmails(users: seq<User>)
  {
    forall i, j :: 0 <= i < j < |users| ==> users[i].email != users[j].email
  }

  predicate HasApp(apps: seq<Application>, id: ObjectId)
  {
    exists i :: 0 <= i < |apps| && apps[i].id == id
  }

  predicate UniqueAppIds(apps: seq<Application>)
  {
    forall i, j :: 0 <= i < j < |apps| ==> apps[i].id != apps[j].id
  }

  /** `Register`: 400 when the body does not bind or the e-mail is taken (the registry is then
      unchanged); 500 on a lookup fault, a hashing failure or an insert fault; otherwise the
      user is appended with the hashed password. */
  function Register(users: seq<User>, body: Body<Credentials>, hashed: Option<string>, freshId: ObjectId,
                    lookupFault: bool, insertFault: bool): (r: Step<seq<User>, string>)
    ensures !BindsCredentials(body) ==> r == Step(users, Fail(StatusBadRequest, BindErrorMessage))
    ensures BindsCredentials(body) && !lookupFault && EmailRegistered(users, body.fields.email) ==>
      r == Step(users, Fail(StatusBadRequest, UserExistsMessage))
    ensures r.reply.Ok? <==>
      && BindsCredentials(body) && !lookupFault && !EmailRegistered(users, body.fields.email)
      && hashed.Some? && !insertFault && FindFirst(users, UserIdIs(freshId)).None?
    ensures BindsCredentials(body) && lookupFault ==> r == Step(users, Fail(StatusInternalServerError, StoreErrorMessage))
    ensures BindsCredentials(body) && !lookupFault && !EmailRegistered(users, body.fields.email) ==>
      && (hashed.None? ==> r == Step(users, Fail(StatusInternalServerError, HashFailedMessage)))
      && (hashed.Some? && (insertFault || FindFirst(users, UserIdIs(freshId)).Some?) ==>
            r == Step(users, Fail(StatusInternalServerError, StoreErrorMessage)))
    ensures r.reply.Ok? ==> r.state == users + [User(freshId, body.fields.email, hashed.value)]
    ensures r.reply.Fail? ==> r.state == users
    ensures UniqueEmails(users) ==> UniqueEmails(r.state)
  {
    if !BindsCredentials(body) then Step(users, Fail(StatusBadRequest, BindErrorMessage))
    else if lookupFault then Step(users, Fail(StatusInternalServerError, StoreErrorMessage))
    else if FindFirst(users, EmailIs(body.fields.email)).Some? then Step(users, Fail(StatusBadRequest, UserExistsMessage))
    else if hashed.None? then Step(users, Fail(StatusInternalServerError, HashFailedMessage))
    else if insertFault || FindFirst(users, UserIdIs(freshId)).Some? then
      Step(users, Fail(StatusInternalServerError, StoreErrorMessage))
    else Step(users + [User(freshId, body.fields.email, hashed.value)], Ok(RegisteredMessage))
  }

  /** `Login`: an unknown e-mail and a wrong password get the same 401; otherwise a token for the
      first user with that e-mail, carrying its roles and expiring 24 hours after `now`. */
  function Login(users: seq<User>, body: Body<Credentials>, passwordMatches: (string, string) -> bool,
                 policy: Permissions.PolicyStore, lookupFault: bool, rolesFault: bool, signFault: bool, now: int)
    : (r: Reply<TokenClaims>)
    ensures !BindsCredentials(body) ==> r == Fail(StatusBadRequest, BindErrorMessage)
    ensures BindsCredentials(body) && !lookupFault && !EmailRegistered(users, body.fields.email) ==>
      r == Fail(StatusUnauthorized, BadCredentialsMessage)
    ensures r.Ok? <==>
      BindsCredentials(body) && !lookupFault && CredentialsMatch(users, body.fields, passwordMatches)
      && !rolesFault && !signFault
    ensures BindsCredentials(body) && lookupFault ==> r == Fail(StatusInternalServerError, StoreErrorMessage)
    ensures (BindsCredentials(body) && !lookupFault && EmailRegistered(users, body.fields.email)
             && !CredentialsMatch(users, body.fields, passwordMatches))
      ==> r == Fail(StatusUnauthorized, BadCredentialsMessage)
    ensures BindsCredentials(body) && !lookupFault && CredentialsMatch(users, body.fields, passwordMatches) ==>
      && (rolesFault ==> r == Fail(StatusInternalServerError, UserRolesFailedMessage))
      && (!rolesFault && signFault ==> r == Fail(StatusInternalServerError, SignFailedMessage))
    ensures r.Ok? ==>
      && (exists i :: FirstWithEmail(users, body.fields.email, i)
            && passwordMatches(users[i].passwordHash, body.fields.password)
            && r.value.id == UserId(Hex(users[i].id)))
      && r.value.email == body.fields.email
      && r.value.roles == Permissions.RolesOf(policy, body.fields.email)
      && r.value.exp == now + TokenLifetime
  {
    if !BindsCredentials(body) then Fail(StatusBadRequest, BindErrorMessage)
    else if lookupFault then Fail(StatusInternalServerError, StoreErrorMessage)
    else match FindFirst(users, EmailIs(body.fields.email))
      case None => Fail(StatusUnauthorized, BadCredentialsMessage)
      case Some(i) =>
        var user := users[i];
        if !passwordMatches(user.passwordHash, body.fields.password) then Fail(StatusUnauthorized, BadCredentialsMessage)
        else if rolesFault then Fail(StatusInternalServerError, UserRolesFailedMessage)
        else if signFault then Fail(StatusInternalServerError, SignFailedMessage)
        else Ok(TokenClaims(UserId(Hex(user.id)), user.email, Permissions.RolesOf(policy, user.email), now + TokenLifetime))
  }

  /** Login does not reveal which half of the credentials was wrong: an unknown e-mail and a
      known e-mail with a wrong password get the identical reply. */
  lemma LoginFailureIsUniform(users: seq<User>, unknown: Body<Credentials>, wrong: Body<Credentials>,
                              passwordMatches: (string, string) -> bool, policy: Permissions.PolicyStore,
                              rolesFault: bool, signFault: bool, now: int)
    requires BindsCredentials(unknown) && !EmailRegistered(users, unknown.fields.email)
    requires BindsCredentials(wrong)
    requires forall i :: 0 <= i < |users| && users[i].email == wrong.fields.email ==>
      !passwordMatches(users[i].passwordHash, wrong.fields.password)
    ensures Login(users, unknown, passwordMatches, policy, false, rolesFault, signFault, now)
         == Login(users, wrong, passwordMatches, policy, false, rolesFault, signFault, now)
  {
  }

  /** `RegisterApplication`: whatever status the client sent, the stored application is pending. */
  function RegisterApplication(apps: seq<Application>, body: Body<ApplicationRequest>, freshId: ObjectId,
                               now: int, fault: bool): (r: Step<seq<Application>, string>)
    ensures r.reply.Ok? <==> body.Body? && !fault && !HasApp(apps, freshId)
    ensures !body.Body? ==> r == Step(apps, Fail(StatusBadRequest, BindErrorMessage))
    ensures body.Body? && (fault || HasApp(apps, freshId)) ==>
      r == Step(apps, Fail(StatusInternalServerError, StoreErrorMessage))
    ensures r.reply.Ok? ==> r.state == apps + [Application(freshId, body.fields.email, Pending, now)]
    ensures r.reply.Fail? ==> r.state == apps
    ensures UniqueAppIds(apps) ==> UniqueAppIds(r.state)
  {
    if !body.Body? then Step(apps, Fail(StatusBadRequest, BindErrorMessage))
    else if fault || FindFirst(apps, AppIdIs(freshId)).Some? then Step(apps, Fail(StatusInternalServerError, StoreErrorMessage))
    else Step(apps + [Application(freshId, body.fields.email, Pending, now)], Ok(AppRegisteredMessage))
  }

  /** `UpdateApplicationStatus`: a malformed id, an unbindable body or a status other than
      "approved"/"rejected" is 400 before the store is touched; an unknown id is 404; otherwise
      the status is overwritten (re-writing the same status still succeeds). */
  function UpdateApplicationStatus(apps: seq<Application>, idText: string, body: Body<string>, fault: bool)
    : (r: Step<seq<Application>, string>)
    ensures ParseObjectId(idText).None? ==> r == Step(apps, Fail(StatusBadRequest, InvalidIdMessage))
    ensures ParseObjectId(idText).Some? && !body.Body? ==> r == Step(apps, Fail(StatusBadRequest, BindErrorMessage))
    ensures ParseObjectId(idText).Some? && body.Body? && body.fields !in {Approved, Rejected} ==>
      r == Step(apps, Fail(StatusBadRequest, InvalidStatusMessage))
    ensures ParseObjectId(idText).Some? && body.Body? && body.fields in {Approved, Rejected} && fault ==>
      r == Step(apps, Fail(StatusInternalServerError, StoreErrorMessage))
    ensures r.reply.Ok? <==>
      && ParseObjectId(idText).Some? && body.Body? && body.fields in {Approved, Rejected}
      && !fault && HasApp(apps, ParseObjectId(idText).value)
    ensures r.reply == Fail(StatusNotFound, AppNotFoundMessage) <==>
      && ParseObjectId(idText).Some? && body.Body? && body.fields in {Approved, Rejected}
      && !fault && !HasApp(apps, ParseObjectId(idText).value)
    ensures r.reply.Ok? ==>
      exists i :: 0 <= i < |apps| && apps[i].id == ParseObjectId(idText).value
        && r.state == apps[i := apps[i].(status := body.fields)]
    ensures r.reply.Fail? ==> r.state == apps
    ensures UniqueAppIds(apps) ==> UniqueAppIds(r.state)
  {
    match ParseObjectId(idText)
    case None => Step(apps, Fail(StatusBadRequest, InvalidIdMessage))
    case Some(id) =>
      if !body.Body? then Step(apps, Fail(StatusBadRequest, BindErrorMessage))
      else if body.fields != Approved && body.fields != Rejected then Step(apps, Fail(StatusBadRequest, InvalidStatusMessage))
      else if fault then Step(apps, Fail(StatusInternalServerError, StoreErrorMessage))
      else match FindFirst(apps, AppIdIs(id))
        case None => Step(apps, Fail(StatusNotFound, AppNotFoundMessage))
        case Some(i) => Step(apps[i := apps[i].(status := body.fields)], Ok(StatusUpdatedMessage))
  }

  /** `GenerateApplicationJWT`: a token only for an application with that e-mail whose status is
      "approved"; otherwise 401. */
  function GenerateApplicationJwt(apps: seq<Application>, body: Body<ApplicationRequest>, policy: Permissions.PolicyStore,
                                  findFault: bool, rolesFault: bool, signFault: bool, now: int)
    : (r: Reply<TokenClaims>)
    ensures r.Ok? <==>
      && body.Body? && !findFault && !rolesFault && !signFault
      && exists i :: 0 <= i < |apps| && apps[i].email == body.fields.email && apps[i].status == Approved
    ensures
      (&& body.Body? && !findFault
       && forall i :: 0 <= i < |apps| ==> !(apps[i].email == body.fields.email && apps[i].status == Approved))
      ==> r == Fail(StatusUnauthorized, NotApprovedMessage)
    ensures !body.Body? ==> r == Fail(StatusBadRequest, BindErrorMessage)
    ensures body.Body? && findFault ==> r == Fail(StatusInternalServerError, StoreErrorMessage)
    ensures (body.Body? && !findFault
             && exists i :: 0 <= i < |apps| && apps[i].email == body.fields.email && apps[i].status == Approved)
      ==> && (rolesFault ==> r == Fail(StatusInternalServerError, AppRolesFailedMessage))
          && (!rolesFault && signFault ==> r == Fail(StatusInternalServerError, SignFailedMessage))
    ensures r.Ok? ==>
      && (exists i :: FirstApproved(apps, body.fields.email, i) && r.value.id == ApplicationId(Hex(apps[i].id)))
      && r.value.email == body.fields.email
      && r.value.roles == Permissions.RolesOf(policy, body.fields.email)
      && r.value.exp == now + TokenLifetime
  {
    if !body.Body? then Fail(StatusBadRequest, BindErrorMessage)
    else if findFault then Fail(StatusInternalServerError, StoreErrorMessage)
    else match FindFirst(apps, ApprovedEmailIs(body.fields.email))
      case None => Fail(StatusUnauthorized, NotApprovedMessage)
      case Some(i) =>
        var app := apps[i];
        if rolesFault then Fail(StatusInternalServerError, AppRolesFailedMessage)
        else if signFault then Fail(StatusInternalServerError, SignFailedMessage)
        else Ok(TokenClaims(ApplicationId(Hex(app.id)), app.email, Permissions.RolesOf(policy, app.email), now + TokenLifetime))
  }

  /** `DeleteApplication`: a malformed id is 400; an unknown id is 404; otherwise that application is removed. */
  function DeleteApplication(apps: seq<Application>, idText: string, fault: bool): (r: Step<seq<Application>, string>)
    ensures ParseObjectId(idText).None? ==> r == Step(apps, Fail(StatusBadRequest, InvalidIdMessage))
    ensures r.reply.Ok? <==> ParseObjectId(idText).Some? && !fault && HasApp(apps, ParseObjectId(idText).value)
    ensures r.reply.Ok? ==>
      exists i :: 0 <= i < |apps| && apps[i].id == ParseObjectId(idText).value && r.state == apps[..i] + apps[i + 1..]
    ensures r.reply == Fail(StatusNotFound, AppNotFoundMessage) <==>
      ParseObjectId(idText).Some? && !fault && !HasApp(apps, ParseObjectId(idText).value)
    ensures ParseObjectId(idText).Some? && fault ==> r == Step(apps, Fail(StatusInternalServerError, StoreErrorMessage))
    ensures r.reply.Fail? ==> r.state == apps
    ensures UniqueAppIds(apps) ==> UniqueAppIds(r.state)
  {
    match ParseObjectId(idText)
    case None => Step(apps, Fail(StatusBadRequest, InvalidIdMessage))
    case Some(id) =>
      if fault then Step(apps, Fail(StatusInternalServerError, StoreErrorMessage))
      else match FindFirst(apps, AppIdIs(id))
        case None => Step(apps, Fail(StatusNotFound, AppNotFoundMessage))
        case Some(i) => Step(RemoveAt(apps, i), Ok(AppDeletedMessage))
  }

  /** `GetApplications`: every application, or 500. */
  function GetApplications(apps: seq<Application>, fault: bool): (r: Reply<seq<Application>>)
    ensures r.Ok? <==> !fault
    ensures r.Fail? ==> r == Fail(StatusInternalServerError, StoreErrorMessage)
    ensures r.Ok? ==> r.value == apps
  {
    if fault then Fail(StatusInternalServerError, StoreErrorMessage) else Ok(apps)
  }

  /** The writes on the applications collection. */
  datatype AppOp =
    | RegisterOp(body: Body<ApplicationRequest>, freshId: ObjectId, now: int, registerFault: bool)
    | UpdateStatusOp(idText: string, status: Body<string>, updateFault: bool)
    | DeleteAppOp(deleteId: string, deleteFault: bool)

  function ApplyApp(apps: seq<Application>, op: AppOp): seq<Application>
  {
    match op
    case RegisterOp(body, freshId, now, fault) => RegisterApplication(apps, body, freshId, now, fault).state
    case UpdateStatusOp(idText, status, fault) => UpdateApplicationStatus(apps, idText, status, fault).state
    case DeleteAppOp(idText, fault) => DeleteApplication(apps, idText, fault).state
  }

  /** An application that has left "pending" never returns to it. */
  predicate NeverBackToPending(before: seq<Application>, after: seq<Application>)
  {
    forall i, j :: 0 <= i < |before| && 0 <= j < |after| && before[i].id == after[j].id && before[i].status != Pending
      ==> after[j].status != Pending
  }

  lemma ApplyAppNeverBackToPending(apps: seq<Application>, op: AppOp)
    requires UniqueAppIds(apps)
    ensures NeverBackToPending(apps, ApplyApp(apps, op))
    ensures UniqueAppIds(ApplyApp(apps, op))
  {
    var t := ApplyApp(apps, op);
    forall i, j | 0 <= i < |apps| && 0 <= j < |t| && apps[i].id == t[j].id && apps[i].status != Pending
      ensures t[j].status != Pending
    {
      match op
      case RegisterOp(body, freshId, now, fault) =>
      case UpdateStatusOp(idText, status, fault) =>
        var r := UpdateApplicationStatus(apps, idText, status, fault);
        if r.reply.Ok? {
          var k :| 0 <= k < |apps| && apps[k].id == ParseObjectId(idText).value && t == apps[k := apps[k].(status := status.fields)];
          if j != k {
            assert t[j] == apps[j];
          }
        }
      case DeleteAppOp(idText, fault) =>
        var r := DeleteApplication(apps, idText, fault);
        if r.reply.Ok? {
          var k :| 0 <= k < |apps| && apps[k].id == ParseObjectId(idText).value && t == apps[..k] + apps[k + 1..];
          if j < k {
            assert t[j] == apps[j];
          } else {
            assert t[j] == apps[j + 1];
          }
        }
    }
  }

  /** Every application with id `x` has been decided (vacuously true when there is none). */
  predicate DecidedOrAbsent(apps: seq<Application>, x: ObjectId)
  {
    forall i :: 0 <= i < |apps| && apps[i].id == x ==> apps[i].status != Pending
  }

  function ApplyAllApps(apps: seq<Application>, ops: seq<AppOp>): seq<Application>
    decreases |ops|
  {
    if |ops| == 0 then apps else ApplyAllApps(ApplyApp(apps, ops[0]), ops[1..])
  }

  /** One write keeps a decided application decided, unless it registers a new one under the
      same id. */
  lemma ApplyKeepsDecided(apps: seq<Application>, op: AppOp, x: ObjectId)
    requires UniqueAppIds(apps) && DecidedOrAbsent(apps, x)
    requires op.RegisterOp? ==> op.freshId != x
    ensures DecidedOrAbsent(ApplyApp(apps, op), x)
  {
    var t := ApplyApp(apps, op);
    forall j | 0 <= j < |t| && t[j].id == x
      ensures t[j].status != Pending
    {
      match op
      case RegisterOp(body, freshId, now, fault) =>
        if RegisterApplication(apps, body, freshId, now, fault).reply.Ok? {
          assert j < |apps| && t[j] == apps[j];
        }
      case UpdateStatusOp(idText, status, fault) =>
        var r := UpdateApplicationStatus(apps, idText, status, fault);
        if r.reply.Ok? {
          var k :| 0 <= k < |apps| && apps[k].id == ParseObjectId(idText).value && t == apps[k := apps[k].(status := status.fields)];
          assert t[j].id == apps[j].id;
        }
      case DeleteAppOp(idText, fault) =>
        var r := DeleteApplication(apps, idText, fault);
        if r.reply.Ok? {
          var k :| 0 <= k < |apps| && apps[k].id == ParseObjectId(idText).value && t == apps[..k] + apps[k + 1..];
          if j < k {
            assert t[j] == apps[j];
          } else {
            assert t[j] == apps[j + 1];
          }
        }
    }
  }

  /** Over any sequence of writes that never registers a new application under `x`, an
      application with id `x` that has been decided is never pending again. */
  lemma {:induction false} DecidedStaysDecided(apps: seq<Application>, ops: seq<AppOp>, x: ObjectId)
    requires UniqueAppIds(apps) && DecidedOrAbsent(apps, x)
    requires forall i :: 0 <= i < |ops| && ops[i].RegisterOp? ==> ops[i].freshId != x
    ensures DecidedOrAbsent(ApplyAllApps(apps, ops), x)
    ensures UniqueAppIds(ApplyAllApps(apps, ops))
    decreases |ops|
  {
    if |ops| > 0 {
      ApplyKeepsDecided(apps, ops[0], x);
      ApplyAppNeverBackToPending(apps, ops[0]);
      var rest := ops[1..];
      forall i | 0 <= i < |rest| && rest[i].RegisterOp?
        ensures rest[i].freshId != x
      {
        assert rest[i] == ops[i + 1];
      }
      DecidedStaysDecided(ApplyApp(apps, ops[0]), rest, x);
    }
  }

  /** A newly registered application starts pending and can be issued a token only after
      an update approves it. */
  lemma NoTokenWhilePending(apps: seq<Application>, body: Body<ApplicationRequest>, policy: Permissions.PolicyStore, now: int)
    requires body.Body?
    requires forall i :: 0 <= i < |apps| && apps[i].email == body.fields.email ==> apps[i].status == Pending
    ensures GenerateApplicationJwt(apps, body, policy, false, false, false, now).Fail?
  {
  }
}

=== FILE: authorize_middleware.dfy ===
/**
 `Authorize` from middleware/authorizeMiddleware.go. The casbin enforcer is a parameter; the
 decision records the one query it was asked, if any, so that "the enforcer is not called" is
 a statement about the result.
 */
module AuthorizeMiddleware {
  import opened Wrappers
  import opened Http

  /** What `enforcer.Enforce` returns: allowed, denied, or an error. */
  datatype EnforceAnswer = Allow | Deny | EnforceError

  datatype Query = Query(subject: string, obj: string, action: string)

  datatype Decision = Decision(result: StageResult, query: Option<Query>)

  const EmailMissingMessage := "User email not found in context"
  const MismatchMessage := "User email does not match API key user"
  const AuthorizationErrorMessage := "Authorization error"
  const ForbiddenMessage := "Forbidden"

  /** Go's `user_email != user` between an interface value and a string is false only when the
      interface holds a string equal to `user`; an unset or nil `user_email` never matches. */
  predicate EmailMatches(userEmail: Option<Value>, user: string)
  {
    userEmail == Some(Str(user))
  }

  /** The subject: `user_email` when it is set, non-nil and not "", otherwise `api_key_user`.
      A non-string `user_email` fails the type assertion and yields "". */
  function Subject(userEmail: Option<Value>, user: string): (sub: string)
    ensures userEmail.Some? && userEmail.value.Str? && userEmail.value.s != "" ==> sub == userEmail.value.s
    ensures userEmail.None? || userEmail.value in {Nil, Str("")} ==> sub == user
    ensures userEmail.Some? && (userEmail.value.Num? || userEmail.value.OtherValue?) ==> sub == ""
  {
    if userEmail.Some? && userEmail.value != Str("") && userEmail.value != Nil then
      (if userEmail.value.Str? then userEmail.value.s else "")
    else user
  }

  /** The request reaches the enforcer: the e-mail check and the mismatch check both pass. */
  predicate ReachesEnforcer(ctx: Context)
  {
    && !(ctx.userEmail.None? && ctx.request.authorization != [])
    && !(!EmailMatches(ctx.userEmail, GetString(ctx.apiKeyUser))
         && ctx.request.apiKey != "" && ctx.request.authorization != [])
  }

  function Authorize(ctx: Context, enforce: (string, string, string) -> EnforceAnswer): (d: Decision)
    ensures ctx.userEmail.None? && ctx.request.authorization != [] ==>
      d == Decision(Abort(StatusUnauthorized, EmailMissingMessage), None)
    ensures
      (&& ctx.userEmail.Some? && ctx.request.apiKey != "" && ctx.request.authorization != []
       && !EmailMatches(ctx.userEmail, GetString(ctx.apiKeyUser)))
      ==> d == Decision(Abort(StatusUnauthorized, MismatchMessage), None)
    ensures d.query.Some? <==> ReachesEnforcer(ctx)
    ensures d.query.Some? ==>
      d.query.value == Query(Subject(ctx.userEmail, GetString(ctx.apiKeyUser)),
                             GetString(ctx.inferredObject), GetString(ctx.inferredAction))
    ensures d.query.Some? ==>
      var answer := enforce(d.query.value.subject, d.query.value.obj, d.query.value.action);
      && (answer == Allow <==> d.result.Continue?)
      && (answer == Deny <==> d.result == Abort(StatusForbidden, ForbiddenMessage))
      && (answer == EnforceError <==> d.result == Abort(StatusInternalServerError, AuthorizationErrorMessage))
    ensures d.result.Continue? ==> d.result.ctx == ctx
  {
    var authHeader := ctx.request.authorization;
    var user := GetString(ctx.apiKeyUser);
    if ctx.userEmail.None? && authHeader != [] then
      Decision(Abort(StatusUnauthorized, EmailMissingMessage), None)
    else if !EmailMatches(ctx.userEmail, user) && ctx.request.apiKey != "" && authHeader != [] then
      Decision(Abort(StatusUnauthorized, MismatchMessage), None)
    else
      var query := Query(Subject(ctx.userEmail, user), GetString(ctx.inferredObject), GetString(ctx.inferredAction));
      var result :=
        match enforce(query.subject, query.obj, query.action)
        case EnforceError => Abort(StatusInternalServerError, AuthorizationErrorMessage)
        case Deny => Abort(StatusForbidden, ForbiddenMessage)
        case Allow => Continue(ctx);
      Decision(result, Some(query))
  }

  /** With both headers present, a request that reaches the enforcer carries one identity: the
      token's e-mail equals the key's owner, and that is the subject the single query asks about. */
  lemma DualIdentityConsistency(ctx: Context, enforce: (string, string, string) -> EnforceAnswer)
    requires ctx.request.apiKey != "" && ctx.request.authorization != []
    requires Authorize(ctx, enforce).query.Some?
    ensures ctx.userEmail == Some(Str(GetString(ctx.apiKeyUser)))
    ensures Authorize(ctx, enforce).query.value.subject == GetString(ctx.apiKeyUser)
  {
  }

  /** A storage or model error in the enforcer is a server error, never a denial. */
  lemma EnforcerErrorIsNotDenial(ctx: Context, enforce: (string, string, string) -> EnforceAnswer)
    requires Authorize(ctx, enforce).query.Some?
    requires var q := Authorize(ctx, enforce).query.value; enforce(q.subject, q.obj, q.action) == EnforceError
    ensures Authorize(ctx, enforce).result.Abort?
    ensures Authorize(ctx, enforce).result.status == StatusInternalServerError
  {
  }
}

=== FILE: bytes.dfy ===
/** Go strings and ObjectIDs are byte sequences; `Byte` is one byte as an integer in 0..255. */
module Bytes {

  type Byte = b: int | 0 <= b < 256
}

=== FILE: config.dfy ===
/** `maskURI` from config/config.go: shortens the MongoDB URI before it is logged. */
module Config {
  import opened Bytes

  /** The bytes of "...". */
  const Ellipsis: seq<Byte> := [46, 46, 46]

  /** URIs up to this many bytes are logged as they are. */
  const MaskThreshold := 30

  /** How many bytes a masked URI keeps from each end. */
  const KeptBytes := 10

  /** The logged form of `uri`. A long URI keeps its first and last ten bytes around "...",
      so the credentials in the middle are never printed. */
  function MaskUri(uri: seq<Byte>): (masked: seq<Byte>)
    ensures |uri| <= MaskThreshold ==> masked == uri
    ensures |uri| > MaskThreshold ==> |masked| == 2 * KeptBytes + |Ellipsis|
    ensures |uri| > MaskThreshold ==>
      && masked[..KeptBytes] == uri[..KeptBytes]
      && masked[KeptBytes..KeptBytes + 3] == Ellipsis
      && masked[KeptBytes + 3..] == uri[|uri| - KeptBytes..]
    ensures |masked| <= |uri|
  {
    if |uri| > MaskThreshold then uri[..KeptBytes] + Ellipsis + uri[|uri| - KeptBytes..] else uri
  }

  /** Masking twice is masking once: a masked URI is short enough to pass through unchanged. */
  lemma MaskIdempotent(uri: seq<Byte>)
    ensures MaskUri(MaskUri(uri)) == MaskUri(uri)
  {
  }

  /** The masked form reveals nothing of the middle, not even its length: two long URIs that
      agree on their first and last ten bytes are logged identically. */
  lemma MaskHidesMiddle(u: seq<Byte>, v: seq<Byte>)
    requires |u| > MaskThreshold && |v| > MaskThreshold
    requires u[..KeptBytes] == v[..KeptBytes]
    requires u[|u| - KeptBytes..] == v[|v| - KeptBytes..]
    ensures MaskUri(u) == MaskUri(v)
  {
  }
}

=== FILE: http.dfy ===
/**
 The request-scoped vocabulary shared by the middleware and the handlers: the request as
 the pipeline sees it, gin's per-request key store, and the continue/abort outcome of a stage.
 */
module Http {
  import opened Wrappers
  import opened Bytes

  const StatusNoContent := 204
  const StatusBadRequest := 400
  const StatusUnauthorized := 401
  const StatusForbidden := 403
  const StatusNotFound := 404
  const StatusInternalServerError := 500

  /** A dynamically typed value, as stored under a gin context key or read from a JSON claim.
      `Nil` covers both a claim that is missing and one that is JSON `null`: Go reads both as nil. */
  datatype Value = Nil | Str(s: string) | Num(n: real) | OtherValue

  /** What the pipeline reads from a request. `template` is the route template gin matched
      (`c.FullPath()`, "" when nothing matched); `path` is the literal URL path. A header that is
      absent reads as "" (`c.GetHeader`), and header names are case-insensitive, so
      `X-API-Key` and `x-api-key` are the same field. The Authorization header is kept as the
      bytes of the Go string, because the JWT stage slices it by byte count. */
  datatype Request = Request(
    httpMethod: string,
    path: string,
    template: string,
    authorization: seq<Byte>,
    apiKey: string)

  /** The keys the stages set with `c.Set`. `None` means the key was never set. */
  datatype Context = Context(
    request: Request,
    userEmail: Option<Value>,
    apiKeyUser: Option<string>,
    inferredObject: Option<string>,
    inferredAction: Option<string>)

  function NewContext(request: Request): Context
  {
    Context(request, None, None, None, None)
  }

  /** `c.GetString(key)`: the string stored under the key, or "" when it was never set. */
  function GetString(v: Option<string>): string
  {
    if v.Some? then v.value else ""
  }

  /** The outcome of one middleware stage: hand an updated context to the next stage,
      or abort the request with a status and an error message. */
  datatype StageResult = Continue(ctx: Context) | Abort(status: int, message: string)

  /** A JSON request body: no body at all, a body that does not bind, or the bound fields. */
  datatype Body<+T> = EmptyBody | Malformed | Body(fields: T)

  /** A handler's JSON reply: a success payload, or an error status with its message. */
  datatype Reply<+T> = Ok(value: T) | Fail(status: int, message: string)

  /** A handler that may write: the collection afterwards and the reply. */
  datatype Step<+S, +T> = Step(state: S, reply: Reply<T>)

  /** Stand-in for `err.Error()` of a failed bind; the text itself is the JSON decoder's. */
  const BindErrorMessage := "invalid request body"

  /** Stand-in for `err.Error()` of a failed storage call; the text itself is the driver's. */
  const StoreErrorMessage := "storage error"
}

=== FILE: infer_object_action_middleware.dfy ===
/**
 `InferObjectAction` from middleware/inferObjectActionMiddleware.go: the casbin object is the
 first segment of the matched route template and the action comes from the HTTP method.
 */
module InferObjectActionMiddleware {
  import opened Wrappers
  import opened Http
  import Strings

  const ObjectErrorMessage := "Unable to infer object from path"

  /** The methods the action switch names. */
  const KnownMethods: set<string> := {"GET", "POST", "PUT", "PATCH", "DELETE"}

  /** The action for an HTTP method; every other method is "unknown". */
  function ActionOf(verb: string): (action: string)
    ensures action == "read" <==> verb == "GET"
    ensures action == "create" <==> verb == "POST"
    ensures action == "update" <==> verb == "PUT" || verb == "PATCH"
    ensures action == "delete" <==> verb == "DELETE"
    ensures action == "unknown" <==> verb !in KnownMethods
  {
    if verb == "GET" then "read"
    else if verb == "POST" then "create"
    else if verb == "PUT" || verb == "PATCH" then "update"
    else if verb == "DELETE" then "delete"
    else "unknown"
  }

  /** Element 1 of the template split on "/", or "" when there is no template or no such element. */
  function ObjectOf(template: string): (obj: string)
    ensures '/' !in obj
    ensures template == "" ==> obj == ""
  {
    if template == "" then ""
    else
      var parts := Strings.Split(template, '/');
      if |parts| > 1 then parts[1] else ""
  }

  /** Reference reading of `ObjectOf`: the text between the first "/" and the next "/" (or the end).
      For a gin template, which starts with "/", that is the first path segment:
      `/exercises/:id` yields `exercises`. */
  lemma ObjectOfSegment(prefix: string, segment: string, rest: string)
    requires '/' !in prefix && '/' !in segment
    requires rest == "" || rest[0] == '/'
    ensures ObjectOf(prefix + "/" + segment + rest) == segment
  {
    var tail := segment + rest;
    var t := prefix + "/" + segment + rest;
    assert t == prefix + ['/'] + tail;
    Strings.SplitPrefix(prefix, '/', tail);
    var parts := Strings.Split(t, '/');
    assert parts == [prefix] + Strings.Split(tail, '/');
    FirstPiece(segment, rest);
    assert parts[1] == segment;
  }

  /** The first piece of `segment + rest` is `segment` when `rest` is empty or starts a new piece. */
  lemma FirstPiece(segment: string, rest: string)
    requires '/' !in segment
    requires rest == "" || rest[0] == '/'
    ensures Strings.Split(segment + rest, '/')[0] == segment
  {
    if rest == "" {
      assert segment + rest == segment;
      Strings.SplitNoSeparator(segment, '/');
    } else {
      assert segment + rest == segment + ['/'] + rest[1..];
      Strings.SplitPrefix(segment, '/', rest[1..]);
    }
  }

  /** A template without any "/" has no element 1, so no object can be inferred from it. */
  lemma ObjectOfWithoutSlash(template: string)
    requires '/' !in template
    ensures ObjectOf(template) == ""
  {
    if template != "" {
      Strings.SplitNoSeparator(template, '/');
    }
  }

  /** The stage: abort with 400 when no object can be inferred, otherwise record both the
      object and the action and change nothing else. */
  function InferObjectAction(ctx: Context): (r: StageResult)
    ensures r.Abort? <==> ObjectOf(ctx.request.template) == ""
    ensures r.Abort? ==> r == Abort(StatusBadRequest, ObjectErrorMessage)
    ensures r.Continue? ==>
      && r.ctx.inferredObject == Some(ObjectOf(ctx.request.template))
      && r.ctx.inferredObject.value != "" && '/' !in r.ctx.inferredObject.value
      && r.ctx.inferredAction == Some(ActionOf(ctx.request.httpMethod))
      && r.ctx.(inferredObject := ctx.inferredObject, inferredAction := ctx.inferredAction) == ctx
  {
    var action := ActionOf(ctx.request.httpMethod);
    var obj := ObjectOf(ctx.request.template);
    if obj == "" then Abort(StatusBadRequest, ObjectErrorMessage)
    else Continue(ctx.(inferredObject := Some(obj), inferredAction := Some(action)))
  }

  /** The inference reads only the method and the template: requests that agree on those two
      (whatever their literal paths, path-parameter values or headers) get the same outcome. */
  lemma InferenceDeterministic(c1: Context, c2: Context)
    requires c1.request.httpMethod == c2.request.httpMethod
    requires c1.request.template == c2.request.template
    ensures InferObjectAction(c1).Abort? <==> InferObjectAction(c2).Abort?
    ensures InferObjectAction(c1).Abort? ==> InferObjectAction(c1) == InferObjectAction(c2)
    ensures InferObjectAction(c1).Continue? ==>
      && InferObjectAction(c1).ctx.inferredObject == InferObjectAction(c2).ctx.inferredObject
      && InferObjectAction(c1).ctx.inferredAction == InferObjectAction(c2).ctx.inferredAction
  {
  }

  /** The root template "/" has an empty first segment, so inference aborts. */
  lemma RootTemplateAborts(ctx: Context)
    requires ctx.request.template == "/"
    ensures InferObjectAction(ctx) == Abort(StatusBadRequest, ObjectErrorMessage)
  {
    ObjectOfSegment("", "", "");
    assert "" + "/" + "" + "" == "/";
  }

  /** `PUT /exercises/:id` is an update of exercises. */
  lemma UpdateExerciseExample(ctx: Context)
    requires ctx.request.httpMethod == "PUT" && ctx.request.template == "/exercises/:id"
    ensures InferObjectAction(ctx).Continue?
    ensures InferObjectAction(ctx).ctx.inferredObject == Some("exercises")
    ensures InferObjectAction(ctx).ctx.inferredAction == Some("update")
  {
    ObjectOfSegment("", "exercises", "/:id");
    assert "" + "/" + "exercises" + "/:id" == "/exercises/:id";
  }
}

=== FILE: jwt_auth_middleware.dfy ===
/**
 `JWTAuthMiddleware` from middleware/jwtAuthMiddleware.go. Parsing and signature checking belong
 to the JWT library and are a parameter here: `parse` maps the token text to what the library
 reports (signing-method family, whether it judged the token valid with the configured secret,
 and the claims).
 */
module JwtAuthMiddleware {
  import opened Wrappers
  import opened Http
  import opened Bytes

  datatype SigningMethod = Hmac | NonHmac(alg: string)

  /** `MapClaims` are the `exp` and `email` entries of a claims map (a missing entry reads as `Nil`). */
  datatype Claims = MapClaims(exp: Value, email: Value) | NonMapClaims

  datatype ParsedToken = ParseFailure | Parsed(signing: SigningMethod, valid: bool, claims: Claims)

  /** The bytes of "Bearer ". */
  const BearerPrefix: seq<Byte> := [66, 101, 97, 114, 101, 114, 32]

  /** `len("Bearer ")`: Go's `len` of a string counts bytes. */
  const BearerPrefixLength := |BearerPrefix|

  const HeaderRequiredMessage := "Authorization header required"
  const InvalidTokenMessage := "Invalid token"
  const TokenExpiredMessage := "Token expired"
  const InvalidClaimsMessage := "Invalid token claims"

  /** Slicing a header of fewer than seven bytes panics; gin's recovery middleware answers 500
      with an empty body. */
  const PanicMessage := ""

  /** Go's `int64(x)` for a float: truncation toward zero. */
  function Truncate(x: real): (t: int)
    ensures 0.0 <= x ==> t as real <= x < t as real + 1.0
    ensures x < 0.0 ==> t as real - 1.0 < x <= t as real
  {
    if x >= 0.0 then x.Floor else -((-x).Floor)
  }

  /** The library parsed the token, the key function accepted its HMAC method and the token is valid. */
  predicate SignatureAccepted(p: ParsedToken)
  {
    p.Parsed? && p.signing == Hmac && p.valid
  }

  /** The middleware's own expiry test: `exp` must be a number whose truncation is not below `now`. */
  predicate NotExpired(exp: Value, now: int)
  {
    exp.Num? && Truncate(exp.n) >= now
  }

  /** Everything the stage demands of a parsed token. */
  predicate TokenAccepted(p: ParsedToken, now: int)
  {
    SignatureAccepted(p) && p.claims.MapClaims? && NotExpired(p.claims.exp, now)
  }

  /** The token text: the header without its first seven bytes, whatever they are. A multi-byte
      character may be cut in two, and the parser then sees the cut remainder. */
  function TokenText(header: seq<Byte>): seq<Byte>
    requires |header| >= BearerPrefixLength
  {
    header[BearerPrefixLength..]
  }

  function JwtAuth(ctx: Context, parse: seq<Byte> -> ParsedToken, now: int): (r: StageResult)
    ensures ctx.request.authorization == [] ==> r == Abort(StatusUnauthorized, HeaderRequiredMessage)
    ensures 0 < |ctx.request.authorization| < BearerPrefixLength ==> r == Abort(StatusInternalServerError, PanicMessage)
    ensures |ctx.request.authorization| >= BearerPrefixLength ==>
      var p := parse(TokenText(ctx.request.authorization));
      && (!SignatureAccepted(p) ==> r == Abort(StatusUnauthorized, InvalidTokenMessage))
      && (SignatureAccepted(p) && p.claims.NonMapClaims? ==> r == Abort(StatusUnauthorized, InvalidClaimsMessage))
      && (SignatureAccepted(p) && p.claims.MapClaims? && !NotExpired(p.claims.exp, now) ==>
            r == Abort(StatusUnauthorized, TokenExpiredMessage))
    ensures r.Continue? <==>
      |ctx.request.authorization| >= BearerPrefixLength && TokenAccepted(parse(TokenText(ctx.request.authorization)), now)
    ensures r.Continue? ==> r.ctx == ctx.(userEmail := Some(parse(TokenText(ctx.request.authorization)).claims.email))
  {
    var header := ctx.request.authorization;
    if header == [] then Abort(StatusUnauthorized, HeaderRequiredMessage)
    else if |header| < BearerPrefixLength then Abort(StatusInternalServerError, PanicMessage)
    else
      var token := parse(TokenText(header));
      if !SignatureAccepted(token) then Abort(StatusUnauthorized, InvalidTokenMessage)
      else match token.claims
        case NonMapClaims => Abort(StatusUnauthorized, InvalidClaimsMessage)
        case MapClaims(exp, email) =>
          if !exp.Num? || Truncate(exp.n) < now then Abort(StatusUnauthorized, TokenExpiredMessage)
          else Continue(ctx.(userEmail := Some(email)))
  }

  /** The expiry test is not strict: a token whose `exp` equals the current second passes,
      one whose `exp` is a second earlier does not. */
  lemma ExpiryBoundary(ctx: Context, parse: seq<Byte> -> ParsedToken, now: int)
    requires |ctx.request.authorization| >= BearerPrefixLength
    requires SignatureAccepted(parse(TokenText(ctx.request.authorization)))
    requires parse(TokenText(ctx.request.authorization)).claims.MapClaims?
    ensures parse(TokenText(ctx.request.authorization)).claims.exp == Num(now as real) ==>
      JwtAuth(ctx, parse, now).Continue?
    ensures parse(TokenText(ctx.request.authorization)).claims.exp == Num((now - 1) as real) ==>
      JwtAuth(ctx, parse, now) == Abort(StatusUnauthorized, TokenExpiredMessage)
  {
  }

  /** The "Bearer " prefix is never checked: any seven bytes in front of the same token
      give the same outcome. */
  lemma PrefixIgnored(ctx: Context, parse: seq<Byte> -> ParsedToken, now: int, prefix: seq<Byte>, token: seq<Byte>)
    requires |prefix| == BearerPrefixLength
    requires ctx.request.authorization == prefix + token
    ensures var bearer := ctx.(request := ctx.request.(authorization := BearerPrefix + token));
      && (JwtAuth(ctx, parse, now).Abort? <==> JwtAuth(bearer, parse, now).Abort?)
      && (JwtAuth(ctx, parse, now).Abort? ==> JwtAuth(ctx, parse, now) == JwtAuth(bearer, parse, now))
      && (JwtAuth(ctx, parse, now).Continue? ==>
            JwtAuth(ctx, parse, now).ctx.userEmail == JwtAuth(bearer, parse, now).ctx.userEmail)
  {
    assert TokenText(prefix + token) == token;
    assert TokenText(BearerPrefix + token) == token;
  }

  /** Only HMAC-signed tokens pass, whatever the library says about their validity. */
  lemma OnlyHmac(ctx: Context, parse: seq<Byte> -> ParsedToken, now: int)
    requires JwtAuth(ctx, parse, now).Continue?
    ensures parse(TokenText(ctx.request.authorization)).signing == Hmac
  {
  }

  /** The length test counts bytes: "ññññ" is four characters but eight bytes in UTF-8, so it is
      not a short header; its last byte is handed to the parser, and a parse failure is 401. */
  lemma MultiByteHeaderIsNotShort(ctx: Context, parse: seq<Byte> -> ParsedToken, now: int)
    requires ctx.request.authorization == [0xC3, 0xB1, 0xC3, 0xB1, 0xC3, 0xB1, 0xC3, 0xB1]
    requires parse([0xB1]) == ParseFailure
    ensures JwtAuth(ctx, parse, now) == Abort(StatusUnauthorized, InvalidTokenMessage)
  {
    assert TokenText(ctx.request.authorization) == [0xB1];
  }
}

=== FILE: object_ids.dfy ===
/**
 MongoDB ObjectIDs as the handlers parse them from a path parameter
 (`primitive.ObjectIDFromHex`) and print them into token claims (`ObjectID.Hex`).
 */
module ObjectIds {
  import opened Wrappers
  import opened Bytes

  /** Twelve bytes. */
  type ObjectId = b: seq<Byte> | |b| == 12 witness [0, 0, 0, 0, 0, 0, 0, 0, 0, 0, 0, 0]

  /** The value of one hexadecimal digit; Go's `hex.Decode` accepts both letter cases. */
  function HexValue(c: char): (v: Option<nat>)
    ensures v.Some? ==> v.value < 16
  {
    if '0' <= c <= '9' then Some(c as int - '0' as int)
    else if 'a' <= c <= 'f' then Some(c as int - 'a' as int + 10)
    else if 'A' <= c <= 'F' then Some(c as int - 'A' as int + 10)
    else None
  }

  /** The lower-case digit for a nibble, as `hex.EncodeToString` writes it. */
  function HexDigit(d: nat): (c: char)
    requires d < 16
    ensures HexValue(c) == Some(d)
    ensures !('A' <= c <= 'Z')
  {
    if d < 10 then ('0' as int + d) as char else ('a' as int + d - 10) as char
  }

  predicate IsHex(s: string)
  {
    forall i :: 0 <= i < |s| ==> HexValue(s[i]).Some?
  }

  /** Two digits per byte, high nibble first. */
  function DecodeHex(s: string): (bytes: seq<Byte>)
    requires |s| % 2 == 0 && IsHex(s)
    ensures |bytes| == |s| / 2
    decreases |s|
  {
    if |s| == 0 then []
    else [16 * HexValue(s[0]).value + HexValue(s[1]).value] + DecodeHex(s[2..])
  }

  function EncodeHex(bytes: seq<Byte>): (s: string)
    ensures |s| == 2 * |bytes|
    ensures IsHex(s)
    decreases |bytes|
  {
    if |bytes| == 0 then ""
    else [HexDigit(bytes[0] / 16), HexDigit(bytes[0] % 16)] + EncodeHex(bytes[1..])
  }

  /** Decoding undoes encoding. */
  lemma {:induction false} DecodeEncode(bytes: seq<Byte>)
    ensures DecodeHex(EncodeHex(bytes)) == bytes
    decreases |bytes|
  {
    if |bytes| > 0 {
      var s := EncodeHex(bytes);
      assert s[2..] == EncodeHex(bytes[1..]);
      DecodeEncode(bytes[1..]);
    }
  }

  /** `primitive.ObjectIDFromHex`: exactly 24 hexadecimal digits, otherwise an error. */
  function ParseObjectId(s: string): (id: Option<ObjectId>)
    ensures id.Some? <==> |s| == 24 && IsHex(s)
    ensures id.Some? ==> id.value == DecodeHex(s)
  {
    if |s| == 24 && IsHex(s) then Some(DecodeHex(s)) else None
  }

  /** `ObjectID.Hex()`: 24 lower-case hexadecimal digits. */
  function Hex(id: ObjectId): (s: string)
    ensures |s| == 24
  {
    EncodeHex(id)
  }

  /** Every printed ObjectID parses back to itself. */
  lemma HexParses(id: ObjectId)
    ensures ParseObjectId(Hex(id)) == Some(id)
  {
    DecodeEncode(id);
  }

  /** `primitive.NilObjectID`, the value of an `ObjectID` field nothing was bound to. */
  const ZeroId: ObjectId := [0, 0, 0, 0, 0, 0, 0, 0, 0, 0, 0, 0]

  /** The zero ObjectID, which the BSON encoder omits (`omitempty`) so that MongoDB assigns one. */
  predicate IsZero(id: ObjectId)
  {
    forall i :: 0 <= i < 12 ==> id[i] == 0
  }
}

=== FILE: permissions.dfy ===
/**
 handlers/permissions.go: the administrative surface over casbin's policy. The policy is a set of
 permission triples and a set of (user, role) groupings; every write goes through the enforcer,
 whose persistence call may fail (`fault`).
 */
module Permissions {
  import opened Http

  /** A `p` rule (models/permission.go); all three fields are required by binding. */
  datatype Permission = Permission(subject: string, obj: string, action: string)

  /** A `g` rule: `user` holds `role`. */
  datatype Grouping = Grouping(user: string, role: string)

  datatype PolicyStore = PolicyStore(policies: set<Permission>, groupings: set<Grouping>)

  const PermissionExistsMessage := "Permission already exists"
  const PermissionNotFoundMessage := "Permission not found"
  const PermissionDeletedMessage := "Permission deleted"
  const AlreadyAssignedMessage := "User already assigned to role"
  const NotAssignedMessage := "User not assigned to role"
  const RemovedFromRoleMessage := "User removed from role"

  /** Binding succeeds only when every required field is present and non-empty. */
  predicate BindsPermission(body: Body<Permission>)
  {
    body.Body? && body.fields.subject != "" && body.fields.obj != "" && body.fields.action != ""
  }

  predicate BindsGrouping(body: Body<Grouping>)
  {
    body.Body? && body.fields.user != "" && body.fields.role != ""
  }

  /** `GetRolesForUser`: the roles directly assigned to `user`. */
  function RolesOf(st: PolicyStore, user: string): set<string>
  {
    set g | g in st.groupings && g.user == user :: g.role
  }

  /** `GetUsersForRole`: the users directly assigned `role`. */
  function UsersOf(st: PolicyStore, role: string): set<string>
  {
    set g | g in st.groupings && g.role == role :: g.user
  }

  /** `GetAllRoles`: every role named by some grouping. */
  function AllRoles(st: PolicyStore): set<string>
  {
    set g | g in st.groupings :: g.role
  }

  /** The two directions of the grouping relation agree. */
  lemma RolesUsersDual(st: PolicyStore, user: string, role: string)
    ensures role in RolesOf(st, user) <==> Grouping(user, role) in st.groupings
    ensures user in UsersOf(st, role) <==> Grouping(user, role) in st.groupings
    ensures user in UsersOf(st, role) ==> role in AllRoles(st)
  {
    if Grouping(user, role) in st.groupings {
      assert role in RolesOf(st, user);
      assert user in UsersOf(st, role);
    }
  }

  /** `CreatePermission`: 400 for a body that does not bind, 500 for a store fault, 400 for a triple
      already present; otherwise the triple is added and echoed. */
  function CreatePermission(st: PolicyStore, body: Body<Permission>, fault: bool): (r: Step<PolicyStore, Permission>)
    ensures !BindsPermission(body) ==> r == Step(st, Fail(StatusBadRequest, BindErrorMessage))
    ensures BindsPermission(body) && fault ==> r == Step(st, Fail(StatusInternalServerError, StoreErrorMessage))
    ensures BindsPermission(body) && !fault && body.fields in st.policies ==>
      r == Step(st, Fail(StatusBadRequest, PermissionExistsMessage))
    ensures r.reply.Ok? <==> BindsPermission(body) && !fault && body.fields !in st.policies
    ensures r.reply.Ok? ==> r.reply.value == body.fields && r.state == st.(policies := st.policies + {body.fields})
    ensures r.reply.Fail? ==> r.state == st
  {
    if !BindsPermission(body) then Step(st, Fail(StatusBadRequest, BindErrorMessage))
    else if fault then Step(st, Fail(StatusInternalServerError, StoreErrorMessage))
    else if body.fields in st.policies then Step(st, Fail(StatusBadRequest, PermissionExistsMessage))
    else Step(st.(policies := st.policies + {body.fields}), Ok(body.fields))
  }

  /** `DeletePermission`: 404 for an absent triple; otherwise the triple is removed. */
  function DeletePermission(st: PolicyStore, body: Body<Permission>, fault: bool): (r: Step<PolicyStore, string>)
    ensures !BindsPermission(body) ==> r == Step(st, Fail(StatusBadRequest, BindErrorMessage))
    ensures BindsPermission(body) && fault ==> r == Step(st, Fail(StatusInternalServerError, StoreErrorMessage))
    ensures BindsPermission(body) && !fault && body.fields !in st.policies ==>
      r == Step(st, Fail(StatusNotFound, PermissionNotFoundMessage))
    ensures r.reply.Ok? <==> BindsPermission(body) && !fault && body.fields in st.policies
    ensures r.reply.Ok? ==> r.state == st.(policies := st.policies - {body.fields})
    ensures r.reply.Fail? ==> r.state == st
  {
    if !BindsPermission(body) then Step(st, Fail(StatusBadRequest, BindErrorMessage))
    else if fault then Step(st, Fail(StatusInternalServerError, StoreErrorMessage))
    else if body.fields !in st.policies then Step(st, Fail(StatusNotFound, PermissionNotFoundMessage))
    else Step(st.(policies := st.policies - {body.fields}), Ok(PermissionDeletedMessage))
  }

  /** `AssignUserToRole`: 400 for a pair already present; otherwise the pair is added and echoed. */
  function AssignUserToRole(st: PolicyStore, body: Body<Grouping>, fault: bool): (r: Step<PolicyStore, Grouping>)
    ensures !BindsGrouping(body) ==> r == Step(st, Fail(StatusBadRequest, BindErrorMessage))
    ensures BindsGrouping(body) && fault ==> r == Step(st, Fail(StatusInternalServerError, StoreErrorMessage))
    ensures BindsGrouping(body) && !fault && body.fields in st.groupings ==>
      r == Step(st, Fail(StatusBadRequest, AlreadyAssignedMessage))
    ensures r.reply.Ok? <==> BindsGrouping(body) && !fault && body.fields !in st.groupings
    ensures r.reply.Ok? ==> r.reply.value == body.fields && r.state == st.(groupings := st.groupings + {body.fields})
    ensures r.reply.Fail? ==> r.state == st
  {
    if !BindsGrouping(body) then Step(st, Fail(StatusBadRequest, BindErrorMessage))
    else if fault then Step(st, Fail(StatusInternalServerError, StoreErrorMessage))
    else if body.fields in st.groupings then Step(st, Fail(StatusBadRequest, AlreadyAssignedMessage))
    else Step(st.(groupings := st.groupings + {body.fields}), Ok(body.fields))
  }

  /** `RemoveUserFromRole`: 404 for an unassigned pair; otherwise the pair is removed. */
  function RemoveUserFromRole(st: PolicyStore, body: Body<Grouping>, fault: bool): (r: Step<PolicyStore, string>)
    ensures !BindsGrouping(body) ==> r == Step(st, Fail(StatusBadRequest, BindErrorMessage))
    ensures BindsGrouping(body) && fault ==> r == Step(st, Fail(StatusInternalServerError, StoreErrorMessage))
    ensures BindsGrouping(body) && !fault && body.fields !in st.groupings ==>
      r == Step(st, Fail(StatusNotFound, NotAssignedMessage))
    ensures r.reply.Ok? <==> BindsGrouping(body) && !fault && body.fields in st.groupings
    ensures r.reply.Ok? ==> r.state == st.(groupings := st.groupings - {body.fields})
    ensures r.reply.Fail? ==> r.state == st
  {
    if !BindsGrouping(body) then Step(st, Fail(StatusBadRequest, BindErrorMessage))
    else if fault then Step(st, Fail(StatusInternalServerError, StoreErrorMessage))
    else if body.fields !in st.groupings then Step(st, Fail(StatusNotFound, NotAssignedMessage))
    else Step(st.(groupings := st.groupings - {body.fields}), Ok(RemovedFromRoleMessage))
  }

  /** `GetPermissions`: the whole policy. */
  function GetPermissions(st: PolicyStore, fault: bool): (r: Reply<set<Permission>>)
    ensures r.Ok? <==> !fault
    ensures r.Fail? ==> r == Fail(StatusInternalServerError, StoreErrorMessage)
    ensures r.Ok? ==> r.value == st.policies
  {
    if fault then Fail(StatusInternalServerError, StoreErrorMessage) else Ok(st.policies)
  }

  /** `GetFilteredPolicy(0, subject)`: casbin treats an empty field value as a wildcard. */
  function GetPermissionsBySubject(st: PolicyStore, subject: string, fault: bool): (r: Reply<set<Permission>>)
    ensures r.Ok? <==> !fault
    ensures r.Fail? ==> r == Fail(StatusInternalServerError, StoreErrorMessage)
    ensures r.Ok? && subject != "" ==> forall p :: p in r.value <==> p in st.policies && p.subject == subject
    ensures r.Ok? && subject == "" ==> r.value == st.policies
  {
    if fault then Fail(StatusInternalServerError, StoreErrorMessage)
    else Ok(set p | p in st.policies && (subject == "" || p.subject == subject))
  }

  /** `GetRolesByUser`. */
  function GetRolesByUser(st: PolicyStore, user: string, fault: bool): (r: Reply<set<string>>)
    ensures r.Ok? <==> !fault
    ensures r.Fail? ==> r == Fail(StatusInternalServerError, StoreErrorMessage)
    ensures r.Ok? ==> forall role :: role in r.value <==> Grouping(user, role) in st.groupings
  {
    if fault then Fail(StatusInternalServerError, StoreErrorMessage) else Ok(RolesOf(st, user))
  }

  /** `GetRoles`: every role with its users. The role listing may fail (`rolesFault`) and so may
      each per-role lookup (`usersFault`); any failure is a 500 and no partial map is returned. */
  method GetRoles(st: PolicyStore, rolesFault: bool, usersFault: string -> bool)
    returns (r: Reply<map<string, set<string>>>)
    ensures r.Ok? <==> !rolesFault && forall role :: role in AllRoles(st) ==> !usersFault(role)
    ensures r.Fail? ==> r.status == StatusInternalServerError
    ensures r.Ok? ==> r.value.Keys == AllRoles(st)
    ensures r.Ok? ==> forall role, user :: role in r.value ==>
      (user in r.value[role] <==> Grouping(user, role) in st.groupings)
  {
    if rolesFault {
      return Fail(StatusInternalServerError, StoreErrorMessage);
    }
    var roles := AllRoles(st);
    var remaining := roles;
    var result: map<string, set<string>> := map[];
    while remaining != {}
      invariant remaining <= roles
      invariant result.Keys == roles - remaining
      invariant forall role :: role in result ==> result[role] == UsersOf(st, role)
      invariant forall role :: role in roles - remaining ==> !usersFault(role)
      decreases remaining
    {
      var role :| role in remaining;
      if usersFault(role) {
        return Fail(StatusInternalServerError, StoreErrorMessage);
      }
      result := result[role := UsersOf(st, role)];
      remaining := remaining - {role};
    }
    forall role, user | role in result
      ensures user in result[role] <==> Grouping(user, role) in st.groupings
    {
      RolesUsersDual(st, user, role);
    }
    return Ok(result);
  }

  /** Adding a new triple and then removing it restores the policy. */
  lemma CreateThenDelete(st: PolicyStore, body: Body<Permission>)
    requires CreatePermission(st, body, false).reply.Ok?
    ensures DeletePermission(CreatePermission(st, body, false).state, body, false) == Step(st, Ok(PermissionDeletedMessage))
  {
  }

  /** Assigning a new role and then removing it restores the grouping relation. */
  lemma AssignThenRemove(st: PolicyStore, body: Body<Grouping>)
    requires AssignUserToRole(st, body, false).reply.Ok?
    ensures RemoveUserFromRole(AssignUserToRole(st, body, false).state, body, false) == Step(st, Ok(RemovedFromRoleMessage))
  {
  }

  /** Adding twice is adding once: the repeat is a conflict that changes nothing. */
  lemma CreateTwiceConflicts(st: PolicyStore, body: Body<Permission>)
    requires CreatePermission(st, body, false).reply.Ok?
    ensures var st' := CreatePermission(st, body, false).state;
      CreatePermission(st', body, false) == Step(st', Fail(StatusBadRequest, PermissionExistsMessage))
  {
  }
}

=== FILE: routes.dfy ===
/**
 main.go: the router. Every route runs the secure-headers stage first; the public routes run
 nothing else, while the protected group runs the API-key check, the token check, object/action
 inference and authorization, in that order, before its handler. Requests carry the route
 template gin matched; a request matching no route runs the secure-headers stage and gets 404.
 */
module Routes {
  import opened Wrappers
  import opened Http
  import opened Storage
  import opened Bytes
  import ApiKeys
  import SecureMiddleware
  import ApiKeyMiddleware
  import JwtAuthMiddleware
  import InferObjectActionMiddleware
  import AuthorizeMiddleware
  import AuthMiddleware

  datatype Handler =
    | Register | Login | Ping
    | GetAllExercises | GetExerciseById | CreateExercise | UpdateExercise | DeleteExercise
    | GetAllApiKeys | GetApiKeyByAccount | ValidateApiKey | CreateApiKey | InvalidateApiKey | DeleteApiKey
    | GetPermissions | GetPermissionsBySubject | CreatePermission | DeletePermission
    | GetRoles | GetRolesByUser | AssignUserToRole | RemoveUserFromRole

  /** The HTTP methods the router registers routes for. */
  datatype Verb = Get | Post | Put | Delete

  /** The method's name on the wire: one the action inference knows, never OPTIONS. */
  function VerbName(v: Verb): (name: string)
    ensures name != "OPTIONS"
    ensures name in InferObjectActionMiddleware.KnownMethods
  {
    match v
    case Get => "GET"
    case Post => "POST"
    case Put => "PUT"
    case Delete => "DELETE"
  }

  /** The first path segment of a route template. */
  datatype Resource = RegisterPath | LoginPath | PingPath | ExercisesPath | ApiKeysPath | PermissionsPath

  /** The segment's text: non-empty and free of "/". */
  function ResourceName(r: Resource): (name: string)
    ensures name != "" && '/' !in name
  {
    match r
    case RegisterPath => "register"
    case LoginPath => "login"
    case PingPath => "ping"
    case ExercisesPath => "exercises"
    case ApiKeysPath => "api-keys"
    case PermissionsPath => "permissions"
  }

  /** The segments after the first, each preceded by "/". */
  function Tail(segments: seq<string>): (rest: string)
    ensures rest == "" <==> segments == []
    ensures rest == "" || rest[0] == '/'
  {
    if segments == [] then "" else "/" + segments[0] + Tail(segments[1..])
  }

  /** A registered route: its method, its template `/resource/segments...`, its handler, and
      whether it belongs to the protected group. */
  datatype Route = Route(verb: Verb, resource: Resource, segments: seq<string>, handler: Handler, protected: bool)

  function Template(r: Route): string
  {
    "/" + ResourceName(r.resource) + Tail(r.segments)
  }

  const PublicRoutes: seq<Route> := [
    Route(Post, RegisterPath, [], Register, false),
    Route(Post, LoginPath, [], Login, false),
    Route(Get, PingPath, [], Ping, false)
  ]

  const ProtectedRoutes: seq<Route> := [
    Route(Get, ExercisesPath, [], GetAllExercises, true),
    Route(Get, ExercisesPath, [":id"], GetExerciseById, true),
    Route(Post, ExercisesPath, [], CreateExercise, true),
    Route(Put, ExercisesPath, [":id"], UpdateExercise, true),
    Route(Delete, ExercisesPath, [":id"], DeleteExercise, true),
    Route(Get, ApiKeysPath, [], GetAllApiKeys, true),
    Route(Get, ApiKeysPath, [":account"], GetApiKeyByAccount, true),
    Route(Get, ApiKeysPath, ["validate", ":api_key"], ValidateApiKey, true),
    Route(Post, ApiKeysPath, [], CreateApiKey, true),
    Route(Put, ApiKeysPath, [":id", "invalidate"], InvalidateApiKey, true),
    Route(Delete, ApiKeysPath, [":id"], DeleteApiKey, true),
    Route(Get, PermissionsPath, [], GetPermissions, true),
    Route(Get, PermissionsPath, ["role", ":subject"], GetPermissionsBySubject, true),
    Route(Post, PermissionsPath, [], CreatePermission, true),
    Route(Delete, PermissionsPath, [], DeletePermission, true),
    Route(Get, PermissionsPath, ["groups"], GetRoles, true),
    Route(Get, PermissionsPath, ["groups", ":user"], GetRolesByUser, true),
    Route(Post, PermissionsPath, ["groups"], AssignUserToRole, true),
    Route(Delete, PermissionsPath, ["groups"], RemoveUserFromRole, true)
  ]

  const AllRoutes: seq<Route> := PublicRoutes + ProtectedRoutes

  datatype Stage = SecureHeadersStage | ApiKeyStage | JwtStage | InferStage | AuthorizeStage

  /** `r.Use(...)`: applied to every route. */
  const GlobalStages: seq<Stage> := [SecureHeadersStage]

  /** `protected.Use(...)`, in registration order. */
  const ProtectedStages: seq<Stage> := [ApiKeyStage, JwtStage, InferStage, AuthorizeStage]

  /** What the stages read besides the request: the key collection and its two lookups' faults,
      the JWT library, the clock (Unix seconds) and the casbin enforcer. */
  datatype Env = Env(
    keys: ApiKeys.Store,
    validateFault: bool,
    ownerFault: bool,
    parse: seq<Byte> -> JwtAuthMiddleware.ParsedToken,
    now: int,
    enforce: (string, string, string) -> AuthorizeMiddleware.EnforceAnswer)

  datatype Response = Handled(handler: Handler, ctx: Context) | Aborted(status: int, message: string)

  /** gin's default body for an unmatched route. */
  const NoRouteMessage := "404 page not found"

  /** The stages a route runs before its handler: the global secure-headers stage first on
      every route, then, on a protected route, API key, JWT, inference and authorization. */
  function StagesFor(route: Route): seq<Stage>
  {
    GlobalStages + (if route.protected then ProtectedStages else [])
  }

  function RunStage(stage: Stage, ctx: Context, env: Env): StageResult
  {
    match stage
    case SecureHeadersStage => SecureMiddleware.SecureHeaders(ctx)
    case ApiKeyStage => ApiKeyMiddleware.ApiKeyAuth(ctx, env.keys, env.validateFault, env.ownerFault)
    case JwtStage => JwtAuthMiddleware.JwtAuth(ctx, env.parse, env.now)
    case InferStage => InferObjectActionMiddleware.InferObjectAction(ctx)
    case AuthorizeStage => AuthorizeMiddleware.Authorize(ctx, env.enforce).result
  }

  /** Stages run in order; the first abort ends the request. */
  function RunStages(stages: seq<Stage>, ctx: Context, env: Env): (r: StageResult)
    ensures r.Continue? ==> forall i :: 0 <= i < |stages| ==> stages[i] != SecureHeadersStage || ctx.request.httpMethod != "OPTIONS"
    ensures r.Continue? ==> r.ctx.request == ctx.request
    decreases |stages|
  {
    if |stages| == 0 then Continue(ctx)
    else match RunStage(stages[0], ctx, env)
      case Abort(status, message) => Abort(status, message)
      case Continue(next) =>
        var rest := RunStages(stages[1..], next, env);
        assert rest.Continue? ==> forall i :: 1 <= i < |stages| ==> stages[i] == stages[1..][i - 1];
        rest
  }

  function FindRoute(verb: string, template: string): Option<Route>
  {
    match FindFirst(AllRoutes, (r: Route) => VerbName(r.verb) == verb && Template(r) == template)
    case None => None
    case Some(i) => Some(AllRoutes[i])
  }

  /** gin's dispatch: the first table entry with the request's method and template runs its
      stages and then its handler; an unmatched request still passes the global middleware, so
      a pre-flight is answered there and anything else gets gin's 404. */
  function Serve(req: Request, env: Env): (r: Response)
    ensures r.Handled? ==>
      exists i :: (0 <= i < |AllRoutes| && VerbName(AllRoutes[i].verb) == req.httpMethod
                   && Template(AllRoutes[i]) == req.template && AllRoutes[i].handler == r.handler)
    ensures r.Handled? ==> r.ctx.request == req && req.httpMethod != "OPTIONS"
  {
    var ctx := NewContext(req);
    match FindRoute(req.httpMethod, req.template)
    case None =>
      (match SecureMiddleware.SecureHeaders(ctx)
       case Abort(status, message) => Aborted(status, message)
       case Continue(_) => Aborted(StatusNotFound, NoRouteMessage))
    case Some(route) =>
      (match RunStages(StagesFor(route), ctx, env)
       case Abort(status, message) => Aborted(status, message)
       case Continue(c) => Handled(route.handler, c))
  }

  /** Every route is authorized as the object named by its first segment. */
  lemma RouteObject(r: Route)
    ensures InferObjectActionMiddleware.ObjectOf(Template(r)) == ResourceName(r.resource)
  {
    var segment, rest := ResourceName(r.resource), Tail(r.segments);
    InferObjectActionMiddleware.ObjectOfSegment("", segment, rest);
    assert "" + "/" + segment + rest == Template(r);
  }

  /** Every protected route is authorized as one of three objects, its first segment. */
  lemma ProtectedObjects()
    ensures forall i :: 0 <= i < |ProtectedRoutes| ==>
      InferObjectActionMiddleware.ObjectOf(Template(ProtectedRoutes[i])) in {"exercises", "api-keys", "permissions"}
  {
    forall i | 0 <= i < |ProtectedRoutes|
      ensures InferObjectActionMiddleware.ObjectOf(Template(ProtectedRoutes[i])) in {"exercises", "api-keys", "permissions"}
    {
      RouteObject(ProtectedRoutes[i]);
    }
  }

  /** The role-membership routes under `/permissions/groups` are authorized as the object
      "permissions", the same object as the policy routes. */
  lemma GroupsAreThePermissionsObject(i: nat)
    requires i < |ProtectedRoutes|
    requires ProtectedRoutes[i].handler in {GetRoles, GetRolesByUser, AssignUserToRole, RemoveUserFromRole}
    ensures ProtectedRoutes[i].resource == PermissionsPath
    ensures |ProtectedRoutes[i].segments| >= 1 && ProtectedRoutes[i].segments[0] == "groups"
    ensures InferObjectActionMiddleware.ObjectOf(Template(ProtectedRoutes[i])) == "permissions"
  {
    RouteObject(ProtectedRoutes[i]);
  }

  /** The table lookup finds exactly the routes of the table. */
  lemma FindRouteSound(verb: string, template: string)
    ensures FindRoute(verb, template).Some? ==>
      FindRoute(verb, template).value in AllRoutes
      && VerbName(FindRoute(verb, template).value.verb) == verb && Template(FindRoute(verb, template).value) == template
    ensures FindRoute(verb, template).None? ==>
      forall i :: 0 <= i < |AllRoutes| ==> !(VerbName(AllRoutes[i].verb) == verb && Template(AllRoutes[i]) == template)
  {
  }

  /** `/register`, `/login` and `/ping` need no credentials: whatever the headers and the
      environment, the request reaches its handler. */
  lemma PublicRoutesNeedNoCredentials(req: Request, env: Env, i: nat)
    requires i < |PublicRoutes|
    requires req.httpMethod == VerbName(PublicRoutes[i].verb) && req.template == Template(PublicRoutes[i])
    ensures Serve(req, env) == Handled(PublicRoutes[i].handler, NewContext(req))
  {
    assert AllRoutes[i] == PublicRoutes[i];
    var j := FindFirst(AllRoutes, (r: Route) => VerbName(r.verb) == req.httpMethod && Template(r) == req.template).value;
    assert j <= i;
    assert !AllRoutes[j].protected;
    assert StagesFor(AllRoutes[j]) == [SecureHeadersStage];
  }

  /** A CORS pre-flight never reaches a handler or a credential check: no route is registered
      for OPTIONS, and the secure-headers stage answers it with 204. */
  lemma PreflightAnswered(req: Request, env: Env)
    requires req.httpMethod == "OPTIONS"
    ensures FindRoute(req.httpMethod, req.template).None?
    ensures Serve(req, env) == Aborted(StatusNoContent, "")
  {
    FindRouteSound(req.httpMethod, req.template);
  }

  /** A request that matches no registered route is answered 404 (after the secure-headers
      stage, which still answers a pre-flight with 204). */
  lemma UnmatchedRoute(req: Request, env: Env)
    requires forall i :: 0 <= i < |AllRoutes| ==>
      !(VerbName(AllRoutes[i].verb) == req.httpMethod && Template(AllRoutes[i]) == req.template)
    ensures req.httpMethod != "OPTIONS" ==> Serve(req, env) == Aborted(StatusNotFound, NoRouteMessage)
    ensures req.httpMethod == "OPTIONS" ==> Serve(req, env) == Aborted(StatusNoContent, "")
  {
    var p := (r: Route) => VerbName(r.verb) == req.httpMethod && Template(r) == req.template;
    assert FindFirst(AllRoutes, p).None?;
  }

  /** The owner of the request's API key, as the key stage records it. */
  function KeyOwner(req: Request, env: Env): string
  {
    ApiKeys.Owner(env.keys, req.apiKey)
  }

  /** The token the JWT stage parses (meaningful once the header is long enough). */
  function ParsedTokenOf(req: Request, env: Env): JwtAuthMiddleware.ParsedToken
    requires |req.authorization| >= JwtAuthMiddleware.BearerPrefixLength
  {
    env.parse(JwtAuthMiddleware.TokenText(req.authorization))
  }

  /** Everything a protected request must satisfy: a valid API key (both lookups succeed), an
      accepted HMAC token whose `email` claim is exactly the key's owner, and an enforcer that
      allows that owner the inferred object and action. */
  predicate Admitted(req: Request, env: Env)
  {
    && req.apiKey != "" && !env.validateFault && !env.ownerFault && ApiKeys.HasValidKey(env.keys, req.apiKey)
    && |req.authorization| >= JwtAuthMiddleware.BearerPrefixLength
    && JwtAuthMiddleware.TokenAccepted(ParsedTokenOf(req, env), env.now)
    && ParsedTokenOf(req, env).claims.email == Str(KeyOwner(req, env))
    && env.enforce(KeyOwner(req, env),
                   InferObjectActionMiddleware.ObjectOf(req.template),
                   InferObjectActionMiddleware.ActionOf(req.httpMethod)) == AuthorizeMiddleware.Allow
  }

  /** The protected chain written out stage by stage. */
  function ProtectedChain(ctx: Context, env: Env): StageResult
  {
    match SecureMiddleware.SecureHeaders(ctx)
    case Abort(s, m) => Abort(s, m)
    case Continue(c1) =>
      match ApiKeyMiddleware.ApiKeyAuth(c1, env.keys, env.validateFault, env.ownerFault)
      case Abort(s, m) => Abort(s, m)
      case Continue(c2) =>
        match JwtAuthMiddleware.JwtAuth(c2, env.parse, env.now)
        case Abort(s, m) => Abort(s, m)
        case Continue(c3) =>
          match InferObjectActionMiddleware.InferObjectAction(c3)
          case Abort(s, m) => Abort(s, m)
          case Continue(c4) => AuthorizeMiddleware.Authorize(c4, env.enforce).result
  }

  lemma RunProtectedStages(ctx: Context, env: Env)
    ensures RunStages(GlobalStages + ProtectedStages, ctx, env) == ProtectedChain(ctx, env)
  {
    var stages := GlobalStages + ProtectedStages;
    assert stages[1..] == ProtectedStages;
    assert ProtectedStages[1..] == [JwtStage, InferStage, AuthorizeStage];
    assert ProtectedStages[1..][1..] == [InferStage, AuthorizeStage];
    assert ProtectedStages[1..][1..][1..] == [AuthorizeStage];
    assert ProtectedStages[1..][1..][1..][1..] == [];
  }

  /** What the chain needs to know about a protected route: its template yields a non-empty
      object, and it is never registered for OPTIONS. */
  lemma ProtectedRouteFacts(verb: string, template: string, route: Route)
    requires FindRoute(verb, template) == Some(route)
    ensures verb == VerbName(route.verb) && template == Template(route)
    ensures verb != "OPTIONS"
    ensures InferObjectActionMiddleware.ObjectOf(template) == ResourceName(route.resource) != ""
  {
    FindRouteSound(verb, template);
    RouteObject(route);
  }

  /** A request for the method and template of protected route `i` is routed to a protected
      route: no public template coincides with a protected one. */
  lemma MatchesProtected(req: Request, i: nat)
    requires i < |ProtectedRoutes|
    requires req.httpMethod == VerbName(ProtectedRoutes[i].verb) && req.template == Template(ProtectedRoutes[i])
    ensures FindRoute(req.httpMethod, req.template).Some?
    ensures FindRoute(req.httpMethod, req.template).value.protected
  {
    var p := (r: Route) => VerbName(r.verb) == req.httpMethod && Template(r) == req.template;
    TableLayout();
    var k := |PublicRoutes| + i;
    assert p(AllRoutes[k]);
    forall j | 0 <= j < |PublicRoutes|
      ensures !p(AllRoutes[j])
    {
      NoPublicMatch(AllRoutes[j], ProtectedRoutes[i]);
    }
    var j := FindFirst(AllRoutes, p).value;
    assert j >= |PublicRoutes|;
    assert AllRoutes[j] == ProtectedRoutes[j - |PublicRoutes|];
  }

  /** A public route and a protected route never share a template. */
  lemma NoPublicMatch(pub: Route, prot: Route)
    requires pub.resource in {RegisterPath, LoginPath, PingPath}
    requires prot.resource in {ExercisesPath, ApiKeysPath, PermissionsPath}
    ensures Template(pub) != Template(prot)
  {
    RouteObject(pub);
    RouteObject(prot);
    ResourceNamesDistinct(pub.resource, prot.resource);
  }

  /** Distinct first segments have distinct names. */
  lemma ResourceNamesDistinct(a: Resource, b: Resource)
    requires a != b
    ensures ResourceName(a) != ResourceName(b)
  {
  }

  /** The public routes come first in the table and serve resources no protected route
      serves; protected route `j` is entry `|PublicRoutes| + j`. */
  lemma TableLayout()
    ensures |AllRoutes| == |PublicRoutes| + |ProtectedRoutes|
    ensures forall j :: 0 <= j < |PublicRoutes| ==>
      !AllRoutes[j].protected && AllRoutes[j].resource in {RegisterPath, LoginPath, PingPath}
    ensures forall j :: 0 <= j < |ProtectedRoutes| ==> AllRoutes[|PublicRoutes| + j] == ProtectedRoutes[j]
    ensures forall j :: 0 <= j < |ProtectedRoutes| ==> ProtectedRoutes[j].resource in {ExercisesPath, ApiKeysPath, PermissionsPath}
    ensures forall j :: 0 <= j < |ProtectedRoutes| ==> ProtectedRoutes[j].protected
  {
  }

  /** The pipeline's admission rule: a request for a protected route reaches its handler
      exactly when it is `Admitted`. */
  lemma ProtectedAdmission(req: Request, env: Env, i: nat)
    requires i < |ProtectedRoutes|
    requires req.httpMethod == VerbName(ProtectedRoutes[i].verb) && req.template == Template(ProtectedRoutes[i])
    ensures Serve(req, env).Handled? <==> Admitted(req, env)
  {
    MatchesProtected(req, i);
    var route := FindRoute(req.httpMethod, req.template).value;
    ProtectedRouteFacts(req.httpMethod, req.template, route);
    assert StagesFor(route) == GlobalStages + ProtectedStages;
    RunProtectedStages(NewContext(req), env);
    AdmissionOfChain(NewContext(req), env);
  }

  lemma AdmissionOfChain(ctx: Context, env: Env)
    requires ctx == NewContext(ctx.request)
    requires ctx.request.httpMethod != "OPTIONS"
    requires InferObjectActionMiddleware.ObjectOf(ctx.request.template) != ""
    ensures ProtectedChain(ctx, env).Continue? <==> Admitted(ctx.request, env)
  {
    var req := ctx.request;
    var c2 := ApiKeyMiddleware.ApiKeyAuth(ctx, env.keys, env.validateFault, env.ownerFault);
    if c2.Continue? {
      var c3 := JwtAuthMiddleware.JwtAuth(c2.ctx, env.parse, env.now);
      if c3.Continue? {
        var c4 := InferObjectActionMiddleware.InferObjectAction(c3.ctx);
        assert c4.Continue?;
        var d := AuthorizeMiddleware.Authorize(c4.ctx, env.enforce);
        assert c4.ctx.apiKeyUser == Some(KeyOwner(req, env));
        assert c4.ctx.userEmail == Some(ParsedTokenOf(req, env).claims.email);
        if ParsedTokenOf(req, env).claims.email == Str(KeyOwner(req, env)) {
          assert d.query.Some?;
          assert d.query.value.subject == KeyOwner(req, env);
        } else {
          assert d.query.None?;
        }
      }
    }
  }

  /** Every request that reaches a protected handler carries both credentials, so the
      mismatch check in `Authorize` always applies and the one enforcer query decides for both
      identities: the subject allowed is the key's owner and also the token's `email`. */
  lemma BothCredentialsRequired(req: Request, env: Env, i: nat)
    requires i < |ProtectedRoutes|
    requires req.httpMethod == VerbName(ProtectedRoutes[i].verb) && req.template == Template(ProtectedRoutes[i])
    ensures Serve(req, env).Handled? ==>
      && req.apiKey != "" && |req.authorization| >= JwtAuthMiddleware.BearerPrefixLength
      && JwtAuthMiddleware.TokenAccepted(ParsedTokenOf(req, env), env.now)
      && ParsedTokenOf(req, env).claims.email == Str(KeyOwner(req, env))
    ensures Serve(req, env).Handled? ==>
      exists k :: 0 <= k < |env.keys| && env.keys[k].key == req.apiKey && env.keys[k].isValid
        && env.keys[k].account == KeyOwner(req, env)
  {
    ProtectedAdmission(req, env, i);
    if Serve(req, env).Handled? {
      assert ApiKeys.GetApiKeyUser(env.keys, req.apiKey, false).Done?;
      var ctx := NewContext(req);
      assert ApiKeyMiddleware.ApiKeyAuth(ctx, env.keys, env.validateFault, env.ownerFault).Continue?;
    }
  }

  /** The unused `Auth` composer is looser than the wired chain: a request with a valid API key
      and no Authorization header passes `Auth` (composed of the same two checks) but is
      rejected by the protected chain's token stage. */
  lemma AuthAdmitsWhatTheChainRejects(req: Request, env: Env, i: nat)
    requires i < |ProtectedRoutes|
    requires req.httpMethod == VerbName(ProtectedRoutes[i].verb) && req.template == Template(ProtectedRoutes[i])
    requires req.authorization == [] && req.apiKey != ""
    requires !env.validateFault && !env.ownerFault && ApiKeys.HasValidKey(env.keys, req.apiKey)
    ensures AuthMiddleware.Auth(NewContext(req),
      (c: Context) => JwtAuthMiddleware.JwtAuth(c, env.parse, env.now),
      (c: Context) => ApiKeyMiddleware.ApiKeyAuth(c, env.keys, env.validateFault, env.ownerFault)).result.Continue?
    ensures Serve(req, env) == Aborted(StatusUnauthorized, JwtAuthMiddleware.HeaderRequiredMessage)
  {
    MatchesProtected(req, i);
    var route := FindRoute(req.httpMethod, req.template).value;
    ProtectedRouteFacts(req.httpMethod, req.template, route);
    assert StagesFor(route) == GlobalStages + ProtectedStages;
    RunProtectedStages(NewContext(req), env);
  }
}

=== FILE: secure_middleware.dfy ===
/**
 `SecureHeadersMiddleware` reduced to its effect on the pipeline: it writes response headers
 (not modelled) and answers a CORS pre-flight `OPTIONS` request with 204 without going further.
 */
module SecureMiddleware {
  import opened Http

  function SecureHeaders(ctx: Context): (r: StageResult)
    ensures r.Abort? <==> ctx.request.httpMethod == "OPTIONS"
    ensures r.Abort? ==> r.status == StatusNoContent
    ensures r.Continue? ==> r.ctx == ctx
  {
    if ctx.request.httpMethod == "OPTIONS" then Abort(StatusNoContent, "") else Continue(ctx)
  }
}

=== FILE: storage.dfy ===
/**
 Helpers shared by the in-memory models of the MongoDB collections. A collection is a
 sequence of documents in natural (insertion) order, so `FindOne` is "the first match".
 */
module Storage {
  import opened Wrappers

  /** The answer of one call into the document store: a value, or a storage fault
      (timeout, lost connection, failed write) that the handlers report as a server error. */
  datatype StoreResult<+T> = Done(value: T) | StoreFault

  /** Index of the first element of `s` that satisfies `p`. */
  function FindFirst<T>(s: seq<T>, p: T -> bool): (r: Option<nat>)
    ensures r.Some? ==> r.value < |s| && p(s[r.value])
    ensures r.Some? ==> forall j :: 0 <= j < r.value ==> !p(s[j])
    ensures r.None? <==> forall j :: 0 <= j < |s| ==> !p(s[j])
    decreases |s|
  {
    if |s| == 0 then None
    else if p(s[0]) then Some(0)
    else match FindFirst(s[1..], p)
      case None => None
      case Some(i) => Some(i + 1)
  }

  /** `s` without its element at index `i`: the effect of `DeleteOne` once the match is found. */
  function RemoveAt<T>(s: seq<T>, i: nat): (r: seq<T>)
    requires i < |s|
    ensures |r| == |s| - 1
    ensures forall j :: 0 <= j < i ==> r[j] == s[j]
    ensures forall j :: i <= j < |r| ==> r[j] == s[j + 1]
  {
    s[..i] + s[i + 1..]
  }
}

=== FILE: strings.dfy ===
/** Go's `strings.Split` on a one-character separator, with `Join` as its inverse. */
module Strings {

  /** The pieces of `s` between occurrences of `sep`; like Go, the empty string splits to [""]. */
  function Split(s: string, sep: char): (parts: seq<string>)
    ensures |parts| >= 1
    ensures forall i :: 0 <= i < |parts| ==> sep !in parts[i]
    decreases |s|
  {
    if |s| == 0 then [""]
    else
      var rest := Split(s[1..], sep);
      if s[0] == sep then [""] + rest
      else [[s[0]] + rest[0]] + rest[1..]
  }

  /** The pieces glued back together with `sep` between neighbours. */
  function Join(parts: seq<string>, sep: char): string
    requires |parts| >= 1
    decreases |parts|
  {
    if |parts| == 1 then parts[0] else parts[0] + [sep] + Join(parts[1..], sep)
  }

  /** Splitting loses nothing: joining the pieces gives back the input. */
  lemma {:induction false} JoinSplit(s: string, sep: char)
    ensures Join(Split(s, sep), sep) == s
    decreases |s|
  {
    if |s| > 0 {
      var rest := Split(s[1..], sep);
      JoinSplit(s[1..], sep);
      if s[0] == sep {
        assert Split(s, sep) == [""] + rest;
        assert ([""] + rest)[1..] == rest;
        assert s == [sep] + s[1..];
      } else if |rest| == 1 {
        assert Split(s, sep) == [[s[0]] + rest[0]];
        assert s == [s[0]] + s[1..];
      } else {
        var parts := Split(s, sep);
        assert parts == [[s[0]] + rest[0]] + rest[1..];
        assert parts[1..] == rest[1..];
        assert Join(rest, sep) == rest[0] + [sep] + Join(rest[1..], sep);
        assert s == [s[0]] + s[1..];
      }
    }
  }

  /** A string without the separator is a single piece. */
  lemma {:induction false} SplitNoSeparator(s: string, sep: char)
    requires sep !in s
    ensures Split(s, sep) == [s]
    decreases |s|
  {
    if |s| > 0 {
      SplitNoSeparator(s[1..], sep);
      assert s == [s[0]] + s[1..];
    }
  }

  /** A separator-free prefix followed by a separator becomes the first piece. */
  lemma {:induction false} SplitPrefix(p: string, sep: char, t: string)
    requires sep !in p
    ensures Split(p + [sep] + t, sep) == [p] + Split(t, sep)
    decreases |p|
  {
    var s := p + [sep] + t;
    if |p| == 0 {
      assert s == [sep] + t;
      assert s[1..] == t;
    } else {
      assert s[1..] == p[1..] + [sep] + t;
      SplitPrefix(p[1..], sep, t);
      assert p == [p[0]] + p[1..];
    }
  }

  /** Joining separator-free pieces and splitting again gives back the pieces. */
  lemma {:induction false} SplitJoin(parts: seq<string>, sep: char)
    requires |parts| >= 1
    requires forall i :: 0 <= i < |parts| ==> sep !in parts[i]
    ensures Split(Join(parts, sep), sep) == parts
    decreases |parts|
  {
    if |parts| == 1 {
      SplitNoSeparator(parts[0], sep);
    } else {
      SplitJoin(parts[1..], sep);
      SplitPrefix(parts[0], sep, Join(parts[1..], sep));
      assert parts == [parts[0]] + parts[1..];
    }
  }
}

=== FILE: wrappers.dfy ===
/** The conventional Some/None datatype, used for context keys, claims and lookups that may be absent. */
module Wrappers {

  datatype Option<+T> = None | Some(value: T)
}
